=== FILE: README.md ===
# Lottery App — a Dafny model of its display logic

The Android app shows the latest PowerBall and Mega Millions draws. It has
three parts:

- A shared view model (`MainViewModel`) holds the fetched values, the chosen
  currency and one "request made" flag per game.
- Two game screens (`PowerBallFragment`, `MegaMillionsFragment`) render the
  values. Each converts jackpot texts such as "$20 Million" into USD, EUR or
  CAD, and joins the winning numbers into "n1, n2, …".
- An activity (`MainActivity`) switches between the screens. A settings
  screen (`SettingsFragment`) picks the currency.

The model is a set of pure functions over immutable states:

- `KotlinText`: the Kotlin library calls the converters rely on. These are
  `indexOf`, `slice`, `until`, `String.toInt`, `Int.toString` and
  `Double.toInt`.
- `Json`: an already-parsed payload and the two `org.json` accessors. Their
  exceptions become `Err`.
- `ViewModel`: the view-model state and `updatePowerBall` /
  `updateMegaMillions`. Each update is a fixed list of lookups run in source
  order. `ViewModelProperties` holds the lemmas about the updates.
- `CurrencyDisplay`: the conversion logic both screens share.
  `NumberSlots`: the numbers array and `formatNumbers`.
- `MegaMillionsScreen`, `PowerBallScreen`: each screen's own
  `convertCurrency`, number observers and fetch gate.
- `Navigation`: the activity's flags, shown screen and button label.
- `Settings`: the radio-button handler and the button toggled on display.
- `App`: the view model driven by any sequence of API responses and currency
  clicks, and the invariants every reachable state keeps.

Both update routines assign the fields one after another and set the flag
last. A lookup that throws therefore leaves the fields already written in
place, and the flag stays as it was. The model follows the code here
(`ViewModelProperties.UpdateStopsAt`).

## Model

| member | source | states |
|---|---|---|
| KotlinText.IndexOf | app/src/main/java/com/example/project4/ui/main/PowerBallFragment.kt:162 | `indexOf(' ')` is -1 exactly when there is no space; otherwise it is a space with none before it |
| KotlinText.Until | app/src/main/java/com/example/project4/ui/main/MegaMillionsFragment.kt:179 | `a until b` holds exactly the integers `k` with `a <= k < b`, so it is empty exactly when `b <= a` |
| KotlinText.Slice | app/src/main/java/com/example/project4/ui/main/PowerBallFragment.kt:162 | an empty range gives ""; an in-bounds range gives the characters `first..last`; it fails exactly when a non-empty range leaves the string |
| KotlinText.ParseInt | app/src/main/java/com/example/project4/ui/main/PowerBallFragment.kt:170 | `toInt` succeeds only on digits with an optional `+` or `-` in front; on that shape it gives the signed value when it fits an `Int` and fails when it does not; "", "-" and "+" fail |
| KotlinText.IntToString | app/src/main/java/com/example/project4/ui/main/PowerBallFragment.kt:170-172 | the text of an `Int` in a template is its decimal digits without leading zeros, with a `-` in front exactly for negatives |
| KotlinText.ParseIntToString | app/src/main/java/com/example/project4/ui/main/MegaMillionsFragment.kt:187 | parsing the decimal text of any `Int` gives that `Int` back |
| KotlinText.SaturatingToInt | app/src/main/java/com/example/project4/ui/main/PowerBallFragment.kt:170-172 | `Double.toInt` keeps in-range values and clamps the rest to the `Int` bounds |
| Json.GetObject | app/src/main/java/com/example/project4/ui/main/MainViewModel.kt:57 | `getJSONObject` succeeds exactly when the key holds an object, and returns that object |
| Json.GetString | app/src/main/java/com/example/project4/ui/main/MainViewModel.kt:57 | `getString` succeeds exactly when the key holds a string, and returns that string |
| Json.Lookup | app/src/main/java/com/example/project4/ui/main/MainViewModel.kt:57-68 | a chain of `getJSONObject` calls ending in `getString` throws the error of its first failing call; when the first step is an object the rest of the chain runs inside it, so success needs every step to be an object |
| ViewModel.DrawState.Text | app/src/main/java/com/example/project4/ui/main/PowerBallFragment.kt:49-50 | `value.toString()` of a field is its stored text, or "null" while it is unset |
| ViewModel.Init | app/src/main/java/com/example/project4/ui/main/MainViewModel.kt:24-53 | a new view model has currency "EUR", both flags false and no field set |
| ViewModel.RunPlan | app/src/main/java/com/example/project4/ui/main/MainViewModel.kt:57-68 | the lookups run in order, each writing its field; no error means every lookup succeeded; then exactly the plan's fields are added, and no other field changes |
| ViewModel.PlanFields | app/src/main/java/com/example/project4/ui/main/MainViewModel.kt:56-91 | each update writes every field of its game exactly once and no field of the other game |
| ViewModel.Update | app/src/main/java/com/example/project4/ui/main/MainViewModel.kt:56-91 | an update keeps the currency and the other game's fields and flag; it sets its own flag exactly on success, and then every field of its game is present |
| ViewModelProperties.LookupOne | app/src/main/java/com/example/project4/ui/main/MainViewModel.kt:57 | a one-level lookup succeeds exactly when the first key holds an object whose key is a string, and returns that string |
| ViewModelProperties.LookupTwo | app/src/main/java/com/example/project4/ui/main/MainViewModel.kt:61 | a two-level lookup succeeds exactly when both keys hold objects and the innermost key is a string, and returns that string |
| ViewModelProperties.ReadPowerBallPlanOk | app/src/main/java/com/example/project4/ui/main/MainViewModel.kt:57-68 | all ten PowerBall lookups succeed exactly when the payload has the shape these lines read: `result` with three strings, `numbers` with `n1`..`n5`, and `next-jackpot` with `date` and `amount` |
| ViewModelProperties.ReadPowerBallPlanValues | app/src/main/java/com/example/project4/ui/main/MainViewModel.kt:57-68 | on such a payload each lookup yields the string at its path |
| ViewModelProperties.ReadMegaMillionsPlanOk | app/src/main/java/com/example/project4/ui/main/MainViewModel.kt:76-88 | all eleven Mega Millions lookups succeed exactly when the payload has the shape these lines read, with `megaplier` and a sixth number `mb` |
| ViewModelProperties.ReadMegaMillionsPlanValues | app/src/main/java/com/example/project4/ui/main/MainViewModel.kt:76-88 | on such a payload each lookup yields the string at its path |
| ViewModelProperties.UpdatePowerBallComplete | app/src/main/java/com/example/project4/ui/main/MainViewModel.kt:56-71 | `updatePowerBall` succeeds exactly on a complete payload; it then overwrites the ten PowerBall fields with the payload's values and sets its flag |
| ViewModelProperties.UpdateMegaMillionsComplete | app/src/main/java/com/example/project4/ui/main/MainViewModel.kt:74-91 | `updateMegaMillions` succeeds exactly on a complete payload; it then overwrites the eleven Mega Millions fields with the payload's values and sets its flag |
| ViewModelProperties.RunPlanOverwrites | app/src/main/java/com/example/project4/ui/main/MainViewModel.kt:57-68 | running the lookups over older values only overwrites them: old values under new ones, with the same error |
| ViewModelProperties.RunPlanIdempotent | app/src/main/java/com/example/project4/ui/main/MainViewModel.kt:57-68 | running the same lookups twice on one payload equals running them once |
| ViewModelProperties.RunPlanStopsAt | app/src/main/java/com/example/project4/ui/main/MainViewModel.kt:57-68 | when lookup k is the first to fail, the fields before k are written, the rest are untouched, and the error is lookup k's |
| ViewModelProperties.RunPlanWritesAll | app/src/main/java/com/example/project4/ui/main/MainViewModel.kt:57-68 | when every lookup succeeds, the result is the old values overwritten by the reading |
| ViewModelProperties.UpdateWritesPlan | app/src/main/java/com/example/project4/ui/main/MainViewModel.kt:56-91 | an update whose lookups all succeed throws nothing, stores exactly their reading over the old values, sets the game's request flag and changes nothing else |
| ViewModelProperties.UpdateIdempotent | app/src/main/java/com/example/project4/ui/main/MainViewModel.kt:56-91 | delivering the same response twice leaves the same state and error as delivering it once |
| ViewModelProperties.UpdateStopsAt | app/src/main/java/com/example/project4/ui/main/MainViewModel.kt:57-70 | a lookup that throws leaves the earlier fields written and the later ones untouched, and leaves the flag unchanged (no rollback) |
| CurrencyDisplay.AmountToken | app/src/main/java/com/example/project4/ui/main/PowerBallFragment.kt:162 | the amount is the space-free text from index 1 up to the first space; it is empty exactly when there is no such text |
| CurrencyDisplay.SliceAmount | app/src/main/java/com/example/project4/ui/main/PowerBallFragment.kt:162 | the slice `1..indexOf(' ') - 1` never throws and gives exactly the amount |
| CurrencyDisplay.AmountTokenOfAmount | app/src/main/java/com/example/project4/ui/main/PowerBallFragment.kt:162 | an amount written as sign, integer, space, suffix yields exactly the integer's digits |
| CurrencyDisplay.EuroAmount | app/src/main/java/com/example/project4/ui/main/PowerBallFragment.kt:170 | the EUR amount is the floor of 0.84 × n |
| CurrencyDisplay.CadAmount | app/src/main/java/com/example/project4/ui/main/PowerBallFragment.kt:172 | the CAD amount is the floor of 1.25 × n, clamped to the `Int` range |
| CurrencyDisplay.Render | app/src/main/java/com/example/project4/ui/main/PowerBallFragment.kt:166-173 | USD shows the token unchanged; EUR and CAD fail exactly when the token is not an `Int`, and otherwise show the currency's symbol, the scaled value of the parsed token and " Million"; an unknown currency gives ""; every supported result ends in " Million" |
| CurrencyDisplay.RenderAmount | app/src/main/java/com/example/project4/ui/main/PowerBallFragment.kt:166-173 | an integer token shows as the currency's symbol, the scaled amount and " Million" |
| MegaMillionsScreen.ConvertCurrency | app/src/main/java/com/example/project4/ui/main/MegaMillionsFragment.kt:173-191 | "null" shows "Loading..."; any other text renders its amount in the chosen currency |
| MegaMillionsScreen.ConvertAmount | app/src/main/java/com/example/project4/ui/main/MegaMillionsFragment.kt:173-191 | an API-style amount shows as symbol, scaled amount and " Million" in every supported currency, whatever the suffix |
| MegaMillionsScreen.TwentyMillion | app/src/main/java/com/example/project4/ui/main/MegaMillionsFragment.kt:184-189 | "$20 Million" shows as "$20 Million", "€16 Million" and "$25 Million" |
| MegaMillionsScreen.NumberSlot | app/src/main/java/com/example/project4/ui/main/MegaMillionsFragment.kt:77-105 | exactly n1..n5 and mb have a slot, each below six; mb owns the last |
| MegaMillionsScreen.NumberSlotOrder | app/src/main/java/com/example/project4/ui/main/MegaMillionsFragment.kt:78-103 | the i-th number field in source order fills slot i, and no two fields share a slot |
| MegaMillionsScreen.OnNumber | app/src/main/java/com/example/project4/ui/main/MegaMillionsFragment.kt:77-105 | a number observer writes "text, " into its slot (bare "text" for mb) and no other slot |
| MegaMillionsScreen.InitialNumbers | app/src/main/java/com/example/project4/ui/main/MegaMillionsFragment.kt:35 | the untouched array displays "00, 00, 00, 00, 00, 00" |
| MegaMillionsScreen.AllNumbers | app/src/main/java/com/example/project4/ui/main/MegaMillionsFragment.kt:77-105 | once all six observers have fired, the display is the six numbers joined by ", ", whatever the array held before |
| MegaMillionsScreen.FetchRequested | app/src/main/java/com/example/project4/ui/main/MegaMillionsFragment.kt:40-43 | the screen asks for the data exactly when `mm_requestMade` is false |
| MegaMillionsScreen.ViewCreatedAmounts | app/src/main/java/com/example/project4/ui/main/MegaMillionsFragment.kt:60-61 | while a field is unset or holds the text "null" its amount shows "Loading..."; otherwise it shows the stored amount converted |
| PowerBallScreen.ConvertCurrency | app/src/main/java/com/example/project4/ui/main/PowerBallFragment.kt:156-175 | "null" shows "Loading..."; any other text renders its amount in the chosen currency |
| PowerBallScreen.ConvertersAgree | app/src/main/java/com/example/project4/ui/main/PowerBallFragment.kt:162 | the closed range here and the half-open range of the other screen cut the same text, so the two converters agree on every input |
| PowerBallScreen.NumberSlot | app/src/main/java/com/example/project4/ui/main/PowerBallFragment.kt:66-89 | exactly n1..n5 have a slot, each below five; n5 owns the last |
| PowerBallScreen.NumberSlotOrder | app/src/main/java/com/example/project4/ui/main/PowerBallFragment.kt:67-87 | the i-th number field in source order fills slot i, and no two fields share a slot |
| PowerBallScreen.OnNumber | app/src/main/java/com/example/project4/ui/main/PowerBallFragment.kt:66-89 | a number observer writes "text, " into its slot (bare "text" for n5) and no other slot |
| PowerBallScreen.InitialNumbers | app/src/main/java/com/example/project4/ui/main/PowerBallFragment.kt:26 | the untouched array displays "00, 00, 00, 00, 00" |
| PowerBallScreen.AllNumbers | app/src/main/java/com/example/project4/ui/main/PowerBallFragment.kt:66-89 | once all five observers have fired, the display is the five numbers joined by ", ", whatever the array held before |
| PowerBallScreen.FetchRequested | app/src/main/java/com/example/project4/ui/main/PowerBallFragment.kt:31-34 | the screen asks for the data exactly when `pb_requestMade` is false |
| PowerBallScreen.ViewCreatedAmounts | app/src/main/java/com/example/project4/ui/main/PowerBallFragment.kt:49-50 | while a field is unset or holds the text "null" its amount shows "Loading..."; otherwise it shows the stored amount converted |
| PowerBallScreen.OnNextPot | app/src/main/java/com/example/project4/ui/main/PowerBallFragment.kt:95-97 | the next-amount observer shows the converted amount, " at ", and the stored next date |
| PowerBallScreen.OnNextDate | app/src/main/java/com/example/project4/ui/main/PowerBallFragment.kt:99-101 | the next-date observer shows the stored amount unconverted (or "null"), " at ", and the new date |
| PowerBallScreen.OnNextDateConverted | app/src/main/java/com/example/project4/ui/main/PowerBallFragment.kt:99-101 | the corrected next-date observer converts the stored amount like the other observer |
| PowerBallScreen.ObserversDiffer | app/src/main/java/com/example/project4/ui/main/PowerBallFragment.kt:95-101 | in any state whose stored next amount converts to a text that starts differently, the amount observer and the date observer show different lines |
| PowerBallScreen.NextJackpotDisagrees | app/src/main/java/com/example/project4/ui/main/PowerBallFragment.kt:95-101 | after launch (currency EUR) and one complete PowerBall response whose next amount is "$20 Million", the amount observer shows "€16 Million at <date>" and the date observer "$20 Million at <date>" |
| PowerBallScreen.NextJackpotAgrees | app/src/main/java/com/example/project4/ui/main/PowerBallFragment.kt:95-101 | with the corrected date observer, both observers show the same line |
| NumberSlots.Filled | app/src/main/java/com/example/project4/ui/main/PowerBallFragment.kt:66-89 | after every observer has fired, each slot holds its value with ", " except the last |
| NumberSlots.Initial | app/src/main/java/com/example/project4/ui/main/PowerBallFragment.kt:26 | the array starts with "00, " in every slot but the last, which holds "00" |
| NumberSlots.Observe | app/src/main/java/com/example/project4/ui/main/PowerBallFragment.kt:67 | storing into one slot changes no other slot |
| NumberSlots.FormatNumbers | app/src/main/java/com/example/project4/ui/main/PowerBallFragment.kt:143-149 | `formatNumbers` returns the slots concatenated in order |
| NumberSlots.FilledDisplay | app/src/main/java/com/example/project4/ui/main/MegaMillionsFragment.kt:160-166 | once every slot holds its value, the concatenation equals the values joined by ", " |
| NumberSlots.ConcatSeparated | app/src/main/java/com/example/project4/ui/main/MegaMillionsFragment.kt:160-166 | slots that each end in ", " concatenate to their values joined, plus one trailing separator |
| Navigation.Init | app/src/main/java/com/example/project4/MainActivity.kt:21-45 | at launch the PowerBall screen is shown with the label "Show Mega Millions", and the state is consistent |
| Navigation.OpenSettings | app/src/main/java/com/example/project4/MainActivity.kt:62-70 | opening settings shows them, labels the button "Close Settings" and keeps `powerBallOpen` |
| Navigation.OnOptionsItemSelected | app/src/main/java/com/example/project4/MainActivity.kt:55-73 | the settings item opens settings and returns true; any other item changes nothing and returns the superclass's answer |
| Navigation.Switch | app/src/main/java/com/example/project4/MainActivity.kt:81-101 | from settings the button goes back to PowerBall; from a game screen it shows the other game; either way the state stays consistent |
| Navigation.SwitchTwice | app/src/main/java/com/example/project4/MainActivity.kt:81-101 | two presses from a game screen come back to the same state |
| Navigation.ReplayConsistent | app/src/main/java/com/example/project4/MainActivity.kt:21-101 | after any run of menu selections and presses, outside settings the label names the game that is not shown |
| Settings.CurrencyOf | app/src/main/java/com/example/project4/ui/main/SettingsFragment.kt:68-80 | each of the three buttons stands for one supported currency |
| Settings.RadioButtonClicked | app/src/main/java/com/example/project4/ui/main/SettingsFragment.kt:62-83 | a checked click on a currency button stores that currency; any other click keeps the currency; a supported currency stays supported |
| Settings.ToggledOnShow | app/src/main/java/com/example/project4/ui/main/SettingsFragment.kt:51-58 | a button is toggled exactly when the stored currency is supported, and it is that currency's button |
| Settings.ClickThenShow | app/src/main/java/com/example/project4/ui/main/SettingsFragment.kt:51-83 | after a checked click, the settings screen shows the clicked button toggled |
| App.Apply | app/src/main/java/com/example/project4/ui/main/PowerBallFragment.kt:117-123 | a response runs its game's update and leaves the currency and the other game's flag and fields alone; a currency click changes only the currency, as the settings handler decides |
| App.ApplyInv | app/src/main/java/com/example/project4/ui/main/MainViewModel.kt:24-91 | each response or click keeps the currency supported and keeps every flagged game's fields present |
| App.ReplayInv | app/src/main/java/com/example/project4/ui/main/MainViewModel.kt:24-91 | every state reachable from a new view model satisfies that invariant |
| App.RequestMadeStays | app/src/main/java/com/example/project4/ui/main/MainViewModel.kt:26-28 | once a request flag is set, no later event clears it |
| App.FetchRequested | app/src/main/java/com/example/project4/ui/main/PowerBallFragment.kt:31-34 | the screen of a game asks for its data exactly when that game's request flag is false |
| App.UpdateSucceeds | app/src/main/java/com/example/project4/ui/main/MainViewModel.kt:56-91 | an update succeeds exactly on a complete payload of its game |
| App.FetchGateCloses | app/src/main/java/com/example/project4/ui/main/PowerBallFragment.kt:31-34 | for either game, after one complete response its screen never asks for the data again |
| App.FetchedOnlyAfterSuccess | app/src/main/java/com/example/project4/ui/main/MegaMillionsFragment.kt:40-43 | for either game, until a complete response arrives its screen asks for the data every time it is created |
| App.RenderedAmountNonEmpty | app/src/main/java/com/example/project4/ui/main/PowerBallFragment.kt:166-173 | in any reachable state, a converted amount is never the empty text an unknown currency would give |

## Left out

- Network requests (Volley, the API key, the error listener) are left out. A
  response enters the model as an already-parsed `Json.Object`. Parsing JSON
  text and the exception a malformed response raises in the listener are not
  part of this model.
- App.Apply: a lookup that throws inside the response listener is uncaught
  and would end the app. `App` instead continues from the partly written
  state. This admits more runs than the app has, so the invariants proved
  about `App` still hold for the real app.
- The Android lifecycle is left out: fragment transactions, `LiveData`
  dispatch order, view inflation, menu inflation and activity recreation.
  Observers are modelled as functions applied to the stored value.
- The observers that copy a value straight into a text view are left out,
  because there is nothing to prove about them. These are powerplay,
  megaplier, the draw date and the Mega Millions "on <date>" line.
- Json.GetString: Android's `getString` turns every value that is present
  into text: numbers, booleans, JSON null (as "null"), and nested objects
  and arrays (as their JSON text). Only a missing key throws. The model
  treats only JSON strings as success, so it fails on present non-string
  values where the app does not.
- ViewModelProperties.UpdatePowerBallComplete and
  ViewModelProperties.UpdateMegaMillionsComplete: "succeeds exactly on a
  complete payload" holds for the model's string-only `getString`. With
  Android's coercion, a payload with a non-string leaf in the right place
  also succeeds.
- KotlinText.ParseInt: accepts ASCII digits only. Kotlin also accepts other
  Unicode decimal digits.
- CurrencyDisplay.EuroAmount and CurrencyDisplay.CadAmount compute
  `floor(n * 0.84)` and `floor(n * 1.25)` exactly in integers; the source
  multiplies doubles. 1.25 is exact in binary. The double nearest 0.84 lies
  about 3.1e-17 below it. When `84 n / 100` is not an integer, it is at least
  0.01 from every integer. The product's total error for a 32-bit `n` is
  below 1e-6, so the floor is the same. When `84 n / 100` is an integer `m`
  (`n` a multiple of 25), the exact product lies just below `m`, by about
  3.7e-17 times `m`. That is less than half the spacing of doubles near `m`,
  so the multiplication rounds to `m` itself and the floor is again `m`.
  The two are therefore expected to agree on every `Int` input. This
  argument was made by hand and is not proved.
- CurrencyDisplay.AmountToken: strings are sequences of Unicode scalar
  values, while Kotlin's `indexOf` and `slice` count UTF-16 code units. A
  text with a character outside the Basic Multilingual Plane before the
  first space is cut differently. For "😀20 Million", Kotlin cuts half of the
  surrogate pair plus "20" and `toInt` throws, while the model cuts "20".
  KotlinText.IndexOf and KotlinText.Slice share this limit.
- CurrencyDisplay.EuroSign: the source spells the euro prefix as a
  mis-decoded byte sequence. The model uses the euro sign as one constant.
- Navigation.OnOptionsItemSelected: the superclass's answer for other menu
  items is a parameter.
- KotlinText.Until: `a until Int.MIN_VALUE` is not special-cased. The
  converter only uses `1 until k` with `k >= -1`.

## Findings

| source | as written | input that shows it | evidently intended | confidence | as-written member | corrected member |
|---|---|---|---|---|---|---|
| app/src/main/java/com/example/project4/ui/main/PowerBallFragment.kt:99-101 | the next-date observer shows the stored next amount without `convertCurrency`, while the next-amount observer (lines 95-97) converts it | currency "EUR", next amount "$20 Million": the amount observer shows "€16 Million at d", the date observer "$20 Million at d" | both observers show the converted amount, so the line does not depend on which fired last | medium, not executed | PowerBallScreen.NextJackpotDisagrees | PowerBallScreen.NextJackpotAgrees |

=== FILE: app.dfy ===
/** The app as a whole: the view model shared by the screens, driven by the
    two API responses and by clicks on the settings screen. */
module App {
  import opened Results
  import opened Json
  import opened ViewModel
  import ViewModelProperties
  import Settings
  import PowerBallScreen
  import MegaMillionsScreen
  import CurrencyDisplay

  /** What can change the shared view model: an API response handed to
      `updatePowerBall` or `updateMegaMillions`, or a click on the settings
      screen. A response whose lookups fail leaves behind whatever was written
      before the failing lookup. */
  datatype Event =
    | Response(game: Game, data: Object)
    | CurrencyClick(view: Settings.ClickedView)

  /** One event applied to the view model. A response is handed to its game's
      update routine and touches neither the currency nor the other game; a
      click changes nothing but the currency. */
  function Apply(s: DrawState, e: Event): (r: DrawState)
    ensures e.Response? ==> r.currency == s.currency
    ensures e.Response? ==> forall g :: g != e.game ==> r.RequestMade(g) == s.RequestMade(g)
    ensures e.Response? ==> forall f :: GameOf(f) != e.game ==>
              (f in r.values <==> f in s.values) && (f in s.values ==> r.values[f] == s.values[f])
    ensures e.CurrencyClick? ==>
              r.values == s.values && r.pbRequestMade == s.pbRequestMade && r.mmRequestMade == s.mmRequestMade
    ensures e.CurrencyClick? ==> r.currency == Settings.RadioButtonClicked(s.currency, e.view)
  {
    match e
    case Response(game, data) => Update(s, game, data).state
    case CurrencyClick(view) => s.(currency := Settings.RadioButtonClicked(s.currency, view))
  }

  /** The state after a run of events since the view model was created. */
  function Replay(events: seq<Event>): DrawState
    decreases |events|
  {
    if |events| == 0 then Init() else Apply(Replay(events[..|events| - 1]), events[|events| - 1])
  }

  /** What every reachable state keeps: the currency is one of the three the
      settings screen offers, and a game marked as fetched has every one of
      its fields. */
  ghost predicate Inv(s: DrawState) {
    && s.currency in Currencies
    && forall g, f :: s.RequestMade(g) && GameOf(f) == g ==> f in s.values
  }

  /** Every event preserves the invariant. */
  lemma ApplyInv(s: DrawState, e: Event)
    requires Inv(s)
    ensures Inv(Apply(s, e))
  {
    match e
    case Response(game, data) =>
      var r := Update(s, game, data);
      forall g, f | r.state.RequestMade(g) && GameOf(f) == g ensures f in r.state.values {
        if g != game || r.error != None {
          assert s.RequestMade(g);
        }
      }
    case CurrencyClick(_) =>
      var t := Apply(s, e);
      forall g ensures t.RequestMade(g) == s.RequestMade(g) {
        assert t.pbRequestMade == s.pbRequestMade && t.mmRequestMade == s.mmRequestMade;
      }
  }

  lemma {:induction false} ReplayInv(events: seq<Event>)
    ensures Inv(Replay(events))
    decreases |events|
  {
    if |events| > 0 {
      ReplayInv(events[..|events| - 1]);
      ApplyInv(Replay(events[..|events| - 1]), events[|events| - 1]);
    }
  }

  /** A request flag, once set, stays set: no event clears it. */
  lemma {:induction false} RequestMadeStays(events: seq<Event>, more: seq<Event>, game: Game)
    requires Replay(events).RequestMade(game)
    ensures Replay(events + more).RequestMade(game)
    decreases |more|
  {
    if |more| == 0 {
      assert events + more == events;
    } else {
      var all := events + more;
      assert all[..|all| - 1] == events + more[..|more| - 1];
      RequestMadeStays(events, more[..|more| - 1], game);
      ApplyKeepsRequest(Replay(all[..|all| - 1]), all[|all| - 1], game);
    }
  }

  lemma ApplyKeepsRequest(s: DrawState, e: Event, game: Game)
    requires s.RequestMade(game)
    ensures Apply(s, e).RequestMade(game)
  {
  }

  /** A response payload that carries every field of its game. */
  predicate Complete(game: Game, data: Object) {
    if game == PowerBall then ViewModelProperties.CompletePowerBall(data)
    else ViewModelProperties.CompleteMegaMillions(data)
  }

  /** Whether the screen of `game` asks for its data when it is created. */
  function FetchRequested(game: Game, s: DrawState): (r: bool)
    ensures r <==> !s.RequestMade(game)
  {
    if game == PowerBall then PowerBallScreen.FetchRequested(s) else MegaMillionsScreen.FetchRequested(s)
  }

  /** An update succeeds exactly on a complete payload of its game. */
  lemma UpdateSucceeds(s: DrawState, game: Game, data: Object)
    ensures Update(s, game, data).error == None <==> Complete(game, data)
  {
    if game == PowerBall {
      ViewModelProperties.UpdatePowerBallComplete(s, data);
    } else {
      ViewModelProperties.UpdateMegaMillionsComplete(s, data);
    }
  }

  /** Each screen's fetch gate: once a complete response for its game has been
      applied, opening that screen again never asks for the data. */
  lemma FetchGateCloses(game: Game, events: seq<Event>, data: Object, more: seq<Event>)
    requires Complete(game, data)
    ensures !FetchRequested(game, Replay(events + [Response(game, data)] + more))
  {
    UpdateSucceeds(Replay(events), game, data);
    assert (events + [Response(game, data)])[..|events|] == events;
    RequestMadeStays(events + [Response(game, data)], more, game);
  }

  /** Until a complete response for its game has been applied, a screen asks
      for the data each time it is created. */
  lemma {:induction false} FetchedOnlyAfterSuccess(game: Game, events: seq<Event>)
    requires forall i :: 0 <= i < |events| && events[i].Response? && events[i].game == game ==>
               !Complete(game, events[i].data)
    ensures FetchRequested(game, Replay(events))
    decreases |events|
  {
    if |events| > 0 {
      var prefix := events[..|events| - 1];
      FetchedOnlyAfterSuccess(game, prefix);
      var e := events[|events| - 1];
      if e.Response? && e.game == game {
        UpdateSucceeds(Replay(prefix), game, e.data);
      }
    }
  }

  /** Whatever the events, the jackpot a screen renders is never the empty
      text the converters fall back to for an unknown currency. */
  lemma RenderedAmountNonEmpty(events: seq<Event>, text: string)
    ensures var c := PowerBallScreen.ConvertCurrency(text, Replay(events).currency);
            c.Ok? ==> |c.value| > 0
    ensures var c := MegaMillionsScreen.ConvertCurrency(text, Replay(events).currency);
            c.Ok? ==> |c.value| > 0
  {
    ReplayInv(events);
    PowerBallScreen.ConvertersAgree(text, Replay(events).currency);
  }
}

=== FILE: currency_display.dfy ===
/** The logic shared by the two `convertCurrency` functions: cutting the amount
    out of the raw jackpot text and rendering it in the selected currency. */
module CurrencyDisplay {
  import opened Results
  import opened KotlinText

  const Loading: string := "Loading..."
  const Million: string := " Million"
  const DollarSign: string := "$"
  /** The prefix of the EUR branch. The source file carries it as a mis-decoded
      byte sequence; the model treats it as one opaque constant. */
  const EuroSign: string := "€"

  datatype ConvertError =
    | NumberFormat(token: string)       // `number.toInt()` threw
    | SliceOutOfBounds(range: IntRange) // `text.slice(…)` threw

  /** The amount inside a raw jackpot text: the characters from index 1 up to,
      not including, the first space, or nothing when there is no space after
      index 1. */
  function AmountToken(text: string): (t: string)
    ensures ' ' !in t
    ensures |t| > 0 ==> |t| + 1 < |text| && t == text[1..|t| + 1] && text[|t| + 1] == ' ' && ' ' !in text[..|t| + 1]
    ensures |t| == 0 <==> ' ' !in text || text[0] == ' ' || (|text| > 1 && text[1] == ' ')
  {
    var i := IndexOf(text, ' ');
    assert i == 0 ==> text[0] == ' ';
    assert i == 1 ==> text[1] == ' ';
    if i >= 2 then
      assert text[..i][1..] == text[1..i];
      text[1..i]
    else ""
  }

  /** Both converters slice `1..indexOf(' ') - 1`; that slice never throws and
      is exactly the amount token. */
  lemma SliceAmount(text: string)
    ensures Slice(text, IntRange(1, IndexOf(text, ' ') - 1)) == Ok(AmountToken(text))
  {
    var i := IndexOf(text, ' ');
    var r := Slice(text, IntRange(1, i - 1));
    if i >= 2 {
      assert r.value == text[1..i];
    }
  }

  /** An amount written by the API, `<sign><n> <suffix>`, yields exactly the
      digits of `n`. */
  lemma AmountTokenOfAmount(sign: char, n: int, suffix: string)
    requires sign != ' '
    ensures AmountToken([sign] + IntToString(n) + " " + suffix) == IntToString(n)
  {
    var digits := IntToString(n);
    var text := [sign] + digits + " " + suffix;
    assert text[..|digits| + 1] == [sign] + digits;
    assert text[|digits| + 1] == ' ';
    IndexOfFirst(text, ' ', |digits| + 1);
    assert text[1..|digits| + 1] == digits;
  }

  /** `floor(n * 0.84).toInt()`, with the product taken exactly. */
  function EuroAmount(n: int): (r: int)
    requires IsInt32(n)
    ensures IsInt32(r)
    ensures 100 * r <= 84 * n < 100 * r + 100
  {
    SaturatingToInt((n * 84) / 100)
  }

  /** `floor(n * 1.25).toInt()`, with the product taken exactly; the floor of
      amounts beyond the `Int` range saturates. */
  function CadAmount(n: int): (r: int)
    requires IsInt32(n)
    ensures IsInt32(r)
    ensures 100 * IntMin <= 125 * n < 100 * IntMax + 100 ==> 100 * r <= 125 * n < 100 * r + 100
    ensures 125 * n >= 100 * IntMax + 100 ==> r == IntMax
    ensures 125 * n < 100 * IntMin ==> r == IntMin
  {
    SaturatingToInt((n * 125) / 100)
  }

  /** The prefix each supported currency is shown with. */
  function Symbol(currency: string): string {
    if currency == "EUR" then EuroSign else DollarSign
  }

  /** The amount a supported currency shows for the USD amount `n`. */
  function Scaled(currency: string, n: int): int
    requires IsInt32(n)
  {
    if currency == "EUR" then EuroAmount(n)
    else if currency == "CAD" then CadAmount(n)
    else n
  }

  /** The `when (viewModel.currency)` block: USD shows the token as it is, EUR
      and CAD parse it and scale it, and any other currency leaves the result at
      its initial "". */
  function Render(token: string, currency: string): (r: Result<string, ConvertError>)
    ensures currency == "USD" ==> r == Ok(DollarSign + token + Million)
    ensures r.Err? <==> (currency == "EUR" || currency == "CAD") && ParseInt(token).None?
    ensures currency !in {"USD", "EUR", "CAD"} ==> r == Ok("")
    ensures (currency == "EUR" || currency == "CAD") && ParseInt(token).Some? ==>
              r == Ok(Symbol(currency) + IntToString(Scaled(currency, ParseInt(token).value)) + Million)
    ensures currency in {"USD", "EUR", "CAD"} && r.Ok? ==>
              |r.value| > |Million| && r.value[|r.value| - |Million|..] == Million
  {
    if currency == "USD" then Ok(DollarSign + token + Million)
    else if currency == "EUR" then
      match ParseInt(token)
      case None => Err(NumberFormat(token))
      case Some(n) => Ok(EuroSign + IntToString(EuroAmount(n)) + Million)
    else if currency == "CAD" then
      match ParseInt(token)
      case None => Err(NumberFormat(token))
      case Some(n) => Ok(DollarSign + IntToString(CadAmount(n)) + Million)
    else Ok("")
  }

  /** For a token that is the decimal text of an `Int`, every supported
      currency shows its symbol, the scaled amount and " Million". */
  lemma RenderAmount(n: int, currency: string)
    requires IsInt32(n)
    requires currency in {"USD", "EUR", "CAD"}
    ensures Render(IntToString(n), currency) == Ok(Symbol(currency) + IntToString(Scaled(currency, n)) + Million)
  {
    ParseIntToString(n);
  }
}

=== FILE: json.dfy ===
/** An already-parsed JSON payload and the two `org.json` accessors the view
    model uses. Both throw `JSONException` when the key is missing or its value
    has the wrong shape; here that is an `Err`. */
module Json {
  import opened Results

  datatype Value =
    | Str(text: string)
    | Number(n: int)
    | Bool(b: bool)
    | Null
    | Arr(items: seq<Value>)
    | Obj(members: map<string, Value>)

  type Object = map<string, Value>

  datatype JsonError =
    | NoValue(key: string)
    | NotAnObject(key: string)
    | NotAString(key: string)

  /** `o.getJSONObject(key)`. */
  function GetObject(o: Object, key: string): (r: Result<Object, JsonError>)
    ensures r.Ok? <==> key in o && o[key].Obj?
    ensures r.Ok? ==> r.value == o[key].members
  {
    if key !in o then Err(NoValue(key))
    else if o[key].Obj? then Ok(o[key].members)
    else Err(NotAnObject(key))
  }

  /** `o.getString(key)`. */
  function GetString(o: Object, key: string): (r: Result<string, JsonError>)
    ensures r.Ok? <==> key in o && o[key].Str?
    ensures r.Ok? ==> r.value == o[key].text
  {
    if key !in o then Err(NoValue(key))
    else if o[key].Str? then Ok(o[key].text)
    else Err(NotAString(key))
  }

  /** `o.getJSONObject(path[0]).getJSONObject(path[1])….getString(key)`: the
      chain throws at its first failing call, and succeeds only when every
      step of the path is an object. */
  function Lookup(o: Object, path: seq<string>, key: string): (r: Result<string, JsonError>)
    ensures |path| == 0 ==> r == GetString(o, key)
    ensures |path| > 0 && GetObject(o, path[0]).Err? ==> r == Err(GetObject(o, path[0]).error)
    ensures |path| > 0 && r.Ok? ==> path[0] in o && o[path[0]].Obj?
    ensures |path| > 0 && GetObject(o, path[0]).Ok? ==> r == Lookup(o[path[0]].members, path[1..], key)
    decreases |path|
  {
    if |path| == 0 then GetString(o, key)
    else
      var inner :- GetObject(o, path[0]);
      Lookup(inner, path[1..], key)
  }
}

=== FILE: kotlin_text.dfy ===
/** The pieces of the Kotlin standard library the converters rely on:
    `String.indexOf(Char)`, `String.slice(IntRange)`, `String.toInt()`,
    `Int.toString()` and the saturating `Double.toInt()`. */
module KotlinText {
  import opened Results

  const IntMin: int := -0x8000_0000
  const IntMax: int := 0x7FFF_FFFF

  /** A value of Kotlin's 32-bit `Int`. */
  predicate IsInt32(n: int) {
    IntMin <= n <= IntMax
  }

  /** `s.indexOf(c)`: the position of the first `c`, or -1 when there is none. */
  function IndexOf(s: string, c: char): (r: int)
    ensures -1 <= r < |s|
    ensures r == -1 <==> c !in s
    ensures 0 <= r ==> s[r] == c && c !in s[..r]
  {
    if |s| == 0 then -1
    else if s[0] == c then 0
    else
      var k := IndexOf(s[1..], c);
      assert s[1..][..k + 1] == s[1..k + 2] by { if 0 <= k { assert s[1..][..k] == s[1..k + 1]; } }
      if k < 0 then -1 else k + 1
  }

  /** Once `c` is known to sit at position `i` and nowhere before it,
      `IndexOf` finds exactly `i`. */
  lemma IndexOfFirst(s: string, c: char, i: nat)
    requires i < |s| && s[i] == c && c !in s[..i]
    ensures IndexOf(s, c) == i
  {
  }

  /** A Kotlin `IntRange`, `first..last`; it is empty when `last < first`. */
  datatype IntRange = IntRange(first: int, last: int) {
    predicate IsEmpty() {
      last < first
    }

    /** `k in range`. */
    predicate Contains(k: int) {
      first <= k <= last
    }
  }

  /** `a until b` is the half-open range `a..b-1`. */
  function Until(a: int, b: int): (r: IntRange)
    ensures r.IsEmpty() <==> b <= a
    ensures forall k :: r.Contains(k) <==> a <= k < b
  {
    IntRange(a, b - 1)
  }

  datatype IndexError = IndexOutOfBounds(range: IntRange)

  /** `s.slice(range)`: empty for an empty range, otherwise the characters at
      `range.first..range.last`, throwing when those are not all inside `s`. */
  function Slice(s: string, range: IntRange): (r: Result<string, IndexError>)
    ensures range.IsEmpty() ==> r == Ok("")
    ensures !range.IsEmpty() && 0 <= range.first && range.last < |s| ==>
              r.Ok? && |r.value| == range.last - range.first + 1 &&
              forall k :: 0 <= k < |r.value| ==> r.value[k] == s[range.first + k]
    ensures r.Err? <==> !range.IsEmpty() && (range.first < 0 || |s| <= range.last)
  {
    if range.IsEmpty() then Ok("")
    else if 0 <= range.first && range.last < |s| then Ok(s[range.first..range.last + 1])
    else Err(IndexOutOfBounds(range))
  }

  predicate IsDigit(c: char) {
    '0' <= c <= '9'
  }

  predicate AllDigits(s: string) {
    forall k :: 0 <= k < |s| ==> IsDigit(s[k])
  }

  function DigitValue(c: char): nat
    requires IsDigit(c)
  {
    c as int - '0' as int
  }

  function DigitChar(d: nat): (c: char)
    requires d < 10
    ensures IsDigit(c) && DigitValue(c) == d
  {
    ('0' as int + d) as char
  }

  /** The number a run of decimal digits denotes, most significant first. */
  function DigitsValue(s: string): nat
    requires AllDigits(s)
  {
    if |s| == 0 then 0
    else DigitsValue(s[..|s| - 1]) * 10 + DigitValue(s[|s| - 1])
  }

  /** The number a decimal string with an optional `-` or `+` sign denotes,
      before any range check; `None` when the text is not of that shape. */
  function SignedValue(s: string): Option<int> {
    if |s| == 0 then None
    else if s[0] == '-' || s[0] == '+' then
      if |s| == 1 || !AllDigits(s[1..]) then None
      else if s[0] == '-' then Some(0 - DigitsValue(s[1..]) as int)
      else Some(DigitsValue(s[1..]))
    else if AllDigits(s) then Some(DigitsValue(s))
    else None
  }

  /** `s.toInt()`: throws `NumberFormatException` (here: `None`) unless `s` is
      an optionally signed run of decimal digits whose value fits in an `Int`. */
  function ParseInt(s: string): (r: Option<int>)
    ensures r.Some? ==> IsInt32(r.value)
    ensures r.Some? ==> (|s| > 0 && AllDigits(s)) || (|s| > 1 && (s[0] == '-' || s[0] == '+') && AllDigits(s[1..]))
    ensures |s| > 0 && AllDigits(s) ==>
              r == (if DigitsValue(s) <= IntMax then Some(DigitsValue(s)) else None)
    ensures |s| > 1 && s[0] == '+' && AllDigits(s[1..]) ==>
              r == (if DigitsValue(s[1..]) <= IntMax then Some(DigitsValue(s[1..])) else None)
    ensures |s| > 1 && s[0] == '-' && AllDigits(s[1..]) ==>
              r == (if DigitsValue(s[1..]) <= -IntMin then Some(0 - DigitsValue(s[1..]) as int) else None)
    ensures s == "" || s == "-" || s == "+" ==> r == None
  {
    match SignedValue(s)
    case None => None
    case Some(n) => if IsInt32(n) then Some(n) else None
  }

  /** Decimal digits of a natural number, without leading zeros. */
  function NatToString(n: nat): (s: string)
    ensures |s| > 0 && AllDigits(s)
    ensures |s| > 1 ==> s[0] != '0'
    decreases n
  {
    if n < 10 then [DigitChar(n)]
    else NatToString(n / 10) + [DigitChar(n % 10)]
  }

  /** `n.toString()` for an `Int`: a minus sign for negatives, then the digits. */
  function IntToString(n: int): (s: string)
    ensures |s| > 0 && ' ' !in s
    ensures s[0] == '-' <==> n < 0
    ensures n >= 0 ==> AllDigits(s) && DigitsValue(s) == n && (|s| > 1 ==> s[0] != '0')
    ensures n < 0 ==> |s| > 1 && AllDigits(s[1..]) && DigitsValue(s[1..]) == -n && (|s| > 2 ==> s[1] != '0')
  {
    NatToStringValue(if n < 0 then -n else n);
    if n < 0 then
      var digits := NatToString(-n);
      assert ("-" + digits)[1..] == digits;
      "-" + digits
    else NatToString(n)
  }

  lemma {:induction false} NatToStringValue(n: nat)
    ensures DigitsValue(NatToString(n)) == n
    decreases n
  {
    var s := NatToString(n);
    if n >= 10 {
      NatToStringValue(n / 10);
      assert s[..|s| - 1] == NatToString(n / 10);
    }
  }

  /** `toInt` reads back what `toString` wrote, for every `Int`. */
  lemma ParseIntToString(n: int)
    requires IsInt32(n)
    ensures ParseInt(IntToString(n)) == Some(n)
  {
    var s := IntToString(n);
    NatToStringValue(if n < 0 then -n else n);
    if n < 0 {
      assert s[1..] == NatToString(-n);
    } else {
      assert s[0] != '-' && s[0] != '+';
    }
  }

  /** `d.toInt()` for the `Double` `d` produced by `floor`: values beyond the
      `Int` range saturate at `IntMin` / `IntMax`. */
  function SaturatingToInt(d: int): (r: int)
    ensures IsInt32(r)
    ensures IsInt32(d) ==> r == d
    ensures d > IntMax ==> r == IntMax
    ensures d < IntMin ==> r == IntMin
  {
    if d > IntMax then IntMax else if d < IntMin then IntMin else d
  }
}

=== FILE: mega_millions_screen.dfy ===
/** `MegaMillionsFragment`: its copy of `convertCurrency`, its six-slot
    `numbers` array, the observers that feed it, and the fetch gate. */
module MegaMillionsScreen {
  import opened Results
  import opened KotlinText
  import opened CurrencyDisplay
  import opened NumberSlots
  import opened ViewModel

  const SlotCount: nat := 6

  /** `1 until text.indexOf(' ')`. */
  function AmountRange(text: string): IntRange {
    Until(1, IndexOf(text, ' '))
  }

  /** `convertCurrency(text)` with `viewModel.currency == currency`. */
  function ConvertCurrency(text: string, currency: string): (r: Result<string, ConvertError>)
    ensures text == "null" ==> r == Ok(Loading)
    ensures text != "null" ==> r == Render(AmountToken(text), currency)
  {
    if text == "null" then Ok(Loading)
    else
      SliceAmount(text);
      match Slice(text, AmountRange(text))
      case Err(e) => Err(SliceOutOfBounds(e.range))
      case Ok(token) => Render(token, currency)
  }

  /** A jackpot text as the API writes it, `<sign><n> <suffix>`, shows the
      currency's symbol, the scaled amount and " Million"; the suffix is dropped. */
  lemma ConvertAmount(sign: char, n: int, suffix: string, currency: string)
    requires sign != ' ' && IsInt32(n)
    requires currency in Currencies
    ensures ConvertCurrency([sign] + IntToString(n) + " " + suffix, currency) ==
              Ok(Symbol(currency) + IntToString(Scaled(currency, n)) + Million)
  {
    var text := [sign] + IntToString(n) + " " + suffix;
    assert text[|IntToString(n)| + 1] == ' ';
    assert text != "null" by { assert ' ' !in "null"; }
    AmountTokenOfAmount(sign, n, suffix);
    RenderAmount(n, currency);
  }

  lemma SmallNumerals()
    ensures IntToString(20) == "20" && IntToString(16) == "16" && IntToString(25) == "25"
  {
    assert NatToString(2) == "2" && NatToString(1) == "1";
    assert DigitChar(0) == '0' && DigitChar(6) == '6' && DigitChar(5) == '5';
  }

  lemma ScaledTwenty()
    ensures Scaled("USD", 20) == 20 && Scaled("EUR", 20) == 16 && Scaled("CAD", 20) == 25
  {
    assert EuroAmount(20) == 16;
    assert CadAmount(20) == 25;
  }

  lemma SpelledTwenty()
    ensures DollarSign + IntToString(20) + Million == "$20 Million"
    ensures EuroSign + IntToString(16) + Million == EuroSign + "16 Million"
    ensures DollarSign + IntToString(25) + Million == "$25 Million"
  {
    SmallNumerals();
  }

  /** The text "$20 Million", read as the API writes amounts. */
  lemma TwentyMillionText(raw: string)
    requires raw == "$20 Million"
    ensures raw == ['$'] + IntToString(20) + " " + "Million"
  {
    SmallNumerals();
  }

  /** "$20 Million" reads "$20 Million" in USD, "€16 Million" in EUR
      (20 × 0.84 = 16.8) and "$25 Million" in CAD (20 × 1.25 = 25). */
  lemma TwentyMillion(raw: string)
    requires raw == "$20 Million"
    ensures ConvertCurrency(raw, "USD") == Ok("$20 Million")
    ensures ConvertCurrency(raw, "EUR") == Ok(EuroSign + "16 Million")
    ensures ConvertCurrency(raw, "CAD") == Ok("$25 Million")
  {
    TwentyMillionText(raw);
    ScaledTwenty();
    SpelledTwenty();
    ConvertAmount('$', 20, "Million", "USD");
    ConvertAmount('$', 20, "Million", "EUR");
    ConvertAmount('$', 20, "Million", "CAD");
  }

  /** The slot the observer of a number field writes: `n1`..`n5` fill slots
      0..4 and the mega ball `mb` the last slot. */
  function NumberSlot(f: Field): (i: Option<nat>)
    ensures i.Some? <==> f in {MmN1, MmN2, MmN3, MmN4, MmN5, MmMb}
    ensures i.Some? ==> i.value < SlotCount
    ensures i == Some(SlotCount - 1) <==> f == MmMb
  {
    match f
    case MmN1 => Some(0)
    case MmN2 => Some(1)
    case MmN3 => Some(2)
    case MmN4 => Some(3)
    case MmN5 => Some(4)
    case MmMb => Some(5)
    case _ => None
  }

  /** The number fields in the order their observers fill the array. */
  const NumberFields: seq<Field> := [MmN1, MmN2, MmN3, MmN4, MmN5, MmMb]

  /** `NumberSlot` is a bijection between the number fields and the slots:
      the i-th field in source order fills slot i, and no two fields share a
      slot. */
  lemma NumberSlotOrder()
    ensures |NumberFields| == SlotCount
    ensures forall i :: 0 <= i < SlotCount ==> NumberSlot(NumberFields[i]) == Some(i)
    ensures forall f :: NumberSlot(f).Some? ==> NumberFields[NumberSlot(f).value] == f
  {
  }

  /** The observer of number field `f` receiving `text`: `"$text, "` for
      `n1`..`n5`, the bare `"$text"` for `mb`; no other slot changes. */
  function OnNumber(slots: seq<string>, f: Field, text: string): (r: seq<string>)
    requires |slots| == SlotCount
    requires NumberSlot(f).Some?
    ensures |r| == SlotCount
    ensures f != MmMb ==> r[NumberSlot(f).value] == text + Separator
    ensures f == MmMb ==> r[SlotCount - 1] == text
    ensures forall j :: 0 <= j < SlotCount && Some(j) != NumberSlot(f) ==> r[j] == slots[j]
  {
    Observe(slots, NumberSlot(f).value, text)
  }

  /** Before any number arrives the screen reads "00, 00, 00, 00, 00, 00". */
  lemma InitialNumbers()
    ensures Concat(Initial(SlotCount)) == "00, 00, 00, 00, 00, 00"
  {
    var values := seq(SlotCount, _ => Placeholder);
    FilledDisplay(values);
    JoinSix(values);
  }

  /** Once all six observers have fired, whatever the array held before, the
      screen reads "n1, n2, n3, n4, n5, mb". */
  lemma AllNumbers(slots: seq<string>, n1: string, n2: string, n3: string, n4: string, n5: string, mb: string)
    requires |slots| == SlotCount
    ensures
      var s1 := OnNumber(slots, MmN1, n1);
      var s2 := OnNumber(s1, MmN2, n2);
      var s3 := OnNumber(s2, MmN3, n3);
      var s4 := OnNumber(s3, MmN4, n4);
      var s5 := OnNumber(s4, MmN5, n5);
      var s6 := OnNumber(s5, MmMb, mb);
      Concat(s6) == n1 + ", " + n2 + ", " + n3 + ", " + n4 + ", " + n5 + ", " + mb
  {
    var values := [n1, n2, n3, n4, n5, mb];
    var s6 := OnNumber(OnNumber(OnNumber(OnNumber(OnNumber(OnNumber(slots, MmN1, n1), MmN2, n2), MmN3, n3), MmN4, n4), MmN5, n5), MmMb, mb);
    assert s6 == Filled(values);
    FilledDisplay(values);
    JoinSix(values);
  }

  /** `onCreateView` asks for the Mega Millions data unless a request already
      completed. */
  function FetchRequested(s: DrawState): (r: bool)
    ensures r <==> !s.mmRequestMade
  {
    !s.RequestMade(MegaMillions)
  }

  /** The two amounts `onViewCreated` renders before any observer fires. */
  function ViewCreatedAmounts(s: DrawState): (r: (Result<string, ConvertError>, Result<string, ConvertError>))
    ensures s.Text(MmPot) == "null" ==> r.0 == Ok(Loading)
    ensures s.Text(MmNextPot) == "null" ==> r.1 == Ok(Loading)
    ensures MmPot in s.values && s.values[MmPot] != "null" ==> r.0 == Render(AmountToken(s.values[MmPot]), s.currency)
    ensures MmNextPot in s.values && s.values[MmNextPot] != "null" ==>
              r.1 == Render(AmountToken(s.values[MmNextPot]), s.currency)
  {
    (ConvertCurrency(s.Text(MmPot), s.currency), ConvertCurrency(s.Text(MmNextPot), s.currency))
  }
}

=== FILE: navigation.dfy ===
/** `MainActivity`: which screen the container shows, the two flags the
    activity keeps about it, and the label of the switch button. */
module Navigation {

  datatype Screen = PowerBallPage | MegaMillionsPage | SettingsPage

  const ShowMegaMillions: string := "Show Mega Millions"
  const ShowPowerBall: string := "Show PowerBall"
  const CloseSettings: string := "Close Settings"

  datatype Nav = Nav(powerBallOpen: bool, settingsOpen: bool, shown: Screen, buttonText: string)

  /** What a game screen's label promises: the button names the other game. */
  function LabelFor(game: Screen): string {
    if game == PowerBallPage then ShowMegaMillions else ShowPowerBall
  }

  /** How the flags, the screen and the label hang together. Outside settings,
      `powerBallOpen` tells which game is shown and the label names the other
      game; inside settings the label offers to close them. */
  ghost predicate Consistent(n: Nav) {
    if n.settingsOpen then
      n.shown == SettingsPage && n.buttonText == CloseSettings
    else
      && n.shown != SettingsPage
      && (n.powerBallOpen <==> n.shown == PowerBallPage)
      && (n.buttonText == ShowMegaMillions <==> n.shown == PowerBallPage)
      && (n.buttonText == ShowPowerBall <==> n.shown == MegaMillionsPage)
  }

  /** `onCreate` on a fresh start: the PowerBall screen with the label chosen
      from `powerBallOpen`, which starts true. */
  function Init(): (n: Nav)
    ensures Consistent(n)
    ensures n.shown == PowerBallPage && n.powerBallOpen && !n.settingsOpen
    ensures n.buttonText == ShowMegaMillions
  {
    var powerBallOpen := true;
    Nav(powerBallOpen, false, PowerBallPage, if powerBallOpen then ShowMegaMillions else ShowPowerBall)
  }

  /** The `openSettings` branch of `onOptionsItemSelected`. */
  function OpenSettings(n: Nav): (r: Nav)
    ensures r.shown == SettingsPage && r.settingsOpen && r.buttonText == CloseSettings
    ensures r.powerBallOpen == n.powerBallOpen
    ensures Consistent(r)
  {
    n.(settingsOpen := true, shown := SettingsPage, buttonText := CloseSettings)
  }

  datatype MenuItem = OpenSettingsItem | OtherItem(id: int)

  /** `onOptionsItemSelected(item)`: the new state and the value returned. Any
      other item is passed to the superclass, whose answer is `superResult`. */
  function OnOptionsItemSelected(n: Nav, item: MenuItem, superResult: bool): (r: (Nav, bool))
    ensures item == OpenSettingsItem ==> r == (OpenSettings(n), true)
    ensures item != OpenSettingsItem ==> r == (n, superResult)
  {
    match item
    case OpenSettingsItem => (OpenSettings(n), true)
    case OtherItem(_) => (n, superResult)
  }

  /** `switchFragments`. */
  function Switch(n: Nav): (r: Nav)
    ensures !r.settingsOpen
    ensures n.settingsOpen ==> r.shown == PowerBallPage && r.powerBallOpen && r.buttonText == ShowMegaMillions
    ensures Consistent(n) && !n.settingsOpen ==>
              r.shown != n.shown && r.shown != SettingsPage && r.powerBallOpen == !n.powerBallOpen
    ensures Consistent(r)
  {
    var (buttonText, shown, powerBallOpen) :=
      if !n.powerBallOpen || n.settingsOpen then
        (ShowMegaMillions, PowerBallPage, if n.settingsOpen then true else n.powerBallOpen)
      else
        (ShowPowerBall, MegaMillionsPage, n.powerBallOpen);
    var powerBallOpen' := if !n.settingsOpen then !powerBallOpen else powerBallOpen;
    Nav(powerBallOpen', false, shown, buttonText)
  }

  /** Two switches from a game screen come back to where they started. */
  lemma SwitchTwice(n: Nav)
    requires Consistent(n) && !n.settingsOpen
    ensures Switch(Switch(n)) == n
  {
  }

  datatype Event = OptionsItem(item: MenuItem, superResult: bool) | SwitchPressed

  function Step(n: Nav, e: Event): Nav {
    match e
    case OptionsItem(item, superResult) => OnOptionsItemSelected(n, item, superResult).0
    case SwitchPressed => Switch(n)
  }

  /** The state after a run of menu selections and button presses from launch. */
  function Replay(events: seq<Event>): Nav
    decreases |events|
  {
    if |events| == 0 then Init() else Step(Replay(events[..|events| - 1]), events[|events| - 1])
  }

  /** Every state the activity can reach is consistent; in particular, outside
      settings the label always names the game that is not shown. */
  lemma {:induction false} ReplayConsistent(events: seq<Event>)
    ensures Consistent(Replay(events))
    ensures !Replay(events).settingsOpen ==>
              Replay(events).buttonText == LabelFor(Replay(events).shown)
    decreases |events|
  {
    if |events| > 0 {
      ReplayConsistent(events[..|events| - 1]);
    }
  }
}

=== FILE: number_slots.dfy ===
/** The fixed-size `numbers` array each game screen keeps for its winning
    numbers, the observer writes into it, and `formatNumbers`. */
module NumberSlots {

  const Separator: string := ", "
  const Placeholder: string := "00"

  /** What an observer stores into slot `i` of `count`: the value followed by
      ", ", except in the last slot, which gets the bare value. */
  function Entry(count: nat, i: nat, text: string): string {
    if i + 1 < count then text + Separator else text
  }

  /** The slots once slot `i` holds the entry of `values[i]`, for every `i`. */
  function Filled(values: seq<string>): (slots: seq<string>)
    ensures |slots| == |values|
    ensures forall i :: 0 <= i < |values| ==> slots[i] == Entry(|values|, i, values[i])
  {
    seq(|values|, i requires 0 <= i < |values| => Entry(|values|, i, values[i]))
  }

  /** The array as allocated: `count` placeholders, as if each had been observed. */
  function Initial(count: nat): (slots: seq<string>)
    requires count > 0
    ensures |slots| == count
    ensures forall i :: 0 <= i < count - 1 ==> slots[i] == Placeholder + Separator
    ensures slots[count - 1] == Placeholder
  {
    Filled(seq(count, _ => Placeholder))
  }

  /** An observer of the number in slot `i` receiving `text`. */
  function Observe(slots: seq<string>, i: nat, text: string): (r: seq<string>)
    requires i < |slots|
    ensures |r| == |slots|
    ensures r[i] == Entry(|slots|, i, text)
    ensures forall j :: 0 <= j < |slots| && j != i ==> r[j] == slots[j]
  {
    slots[i := Entry(|slots|, i, text)]
  }

  /** The slots concatenated in order. */
  function Concat(slots: seq<string>): string {
    if |slots| == 0 then "" else Concat(slots[..|slots| - 1]) + slots[|slots| - 1]
  }

  /** The values separated by ", " — the display the screen is meant to show. */
  function Join(values: seq<string>): string {
    if |values| == 0 then ""
    else if |values| == 1 then values[0]
    else Join(values[..|values| - 1]) + Separator + values[|values| - 1]
  }

  /** `formatNumbers()`: appends the slots to an empty string, first to last. */
  method FormatNumbers(slots: seq<string>) returns (result: string)
    ensures result == Concat(slots)
  {
    result := "";
    var i := 0;
    while i < |slots|
      invariant 0 <= i <= |slots|
      invariant result == Concat(slots[..i])
    {
      assert slots[..i + 1][..i] == slots[..i];
      result := result + slots[i];
      i := i + 1;
    }
    assert slots[..|slots|] == slots;
  }

  /** The first `k` slots, each ending in ", ", concatenate to the first `k`
      values joined, followed by one more separator. */
  lemma {:induction false} ConcatSeparated(values: seq<string>, k: nat)
    requires 0 < k <= |values|
    ensures Concat(seq(k, i requires 0 <= i < k => values[i] + Separator)) == Join(values[..k]) + Separator
  {
    var slots := seq(k, i requires 0 <= i < k => values[i] + Separator);
    if k > 1 {
      ConcatSeparated(values, k - 1);
      assert slots[..k - 1] == seq(k - 1, i requires 0 <= i < k - 1 => values[i] + Separator);
      assert values[..k][..k - 1] == values[..k - 1];
    } else {
      assert slots[..0] == [];
    }
  }

  /** Once every slot holds its value, the display is the values joined by ", ". */
  lemma FilledDisplay(values: seq<string>)
    ensures Concat(Filled(values)) == Join(values)
  {
    var n := |values|;
    var slots := Filled(values);
    if n > 1 {
      ConcatSeparated(values, n - 1);
      assert slots[..n - 1] == seq(n - 1, i requires 0 <= i < n - 1 => values[i] + Separator);
      assert values[..n][..n - 1] == values[..n - 1];
      assert values[..n] == values;
    } else if n == 1 {
      assert slots[..0] == [];
    }
  }

  /** Joining one more value appends a separator and that value. */
  lemma JoinStep(values: seq<string>, k: nat)
    requires 1 <= k < |values|
    ensures Join(values[..k + 1]) == Join(values[..k]) + Separator + values[k]
  {
    assert values[..k + 1][..k] == values[..k];
  }

  /** Six values joined, written out. */
  lemma JoinSix(values: seq<string>)
    requires |values| == 6
    ensures Join(values) ==
              values[0] + ", " + values[1] + ", " + values[2] + ", " + values[3] + ", " + values[4] + ", " + values[5]
  {
    assert Join(values[..1]) == values[0];
    JoinStep(values, 1);
    JoinStep(values, 2);
    JoinStep(values, 3);
    JoinStep(values, 4);
    JoinStep(values, 5);
    assert values[..6] == values;
  }

  /** Five values joined, written out. */
  lemma JoinFive(values: seq<string>)
    requires |values| == 5
    ensures Join(values) == values[0] + ", " + values[1] + ", " + values[2] + ", " + values[3] + ", " + values[4]
  {
    assert Join(values[..1]) == values[0];
    JoinStep(values, 1);
    JoinStep(values, 2);
    JoinStep(values, 3);
    JoinStep(values, 4);
    assert values[..5] == values;
  }
}

=== FILE: power_ball_screen.dfy ===
/** `PowerBallFragment`: its copy of `convertCurrency`, its five-slot
    `numbers` array, the observers that feed it, the next-jackpot line, and
    the fetch gate. */
module PowerBallScreen {
  import opened Results
  import opened KotlinText
  import opened CurrencyDisplay
  import opened NumberSlots
  import opened Json
  import opened ViewModel
  import ViewModelProperties
  import MegaMillionsScreen

  const SlotCount: nat := 5

  /** `1..(text.indexOf(' ') - 1)`. */
  function AmountRange(text: string): IntRange {
    IntRange(1, IndexOf(text, ' ') - 1)
  }

  /** `convertCurrency(text)` with `viewModel.currency == currency`. */
  function ConvertCurrency(text: string, currency: string): (r: Result<string, ConvertError>)
    ensures text == "null" ==> r == Ok(Loading)
    ensures text != "null" ==> r == Render(AmountToken(text), currency)
  {
    if text == "null" then Ok(Loading)
    else
      SliceAmount(text);
      match Slice(text, AmountRange(text))
      case Err(e) => Err(SliceOutOfBounds(e.range))
      case Ok(token) => Render(token, currency)
  }

  /** The closed range here and the half-open `1 until indexOf(' ')` of the
      Mega Millions screen cut the same token, so the two converters agree on
      every text and currency. */
  lemma ConvertersAgree(text: string, currency: string)
    ensures ConvertCurrency(text, currency) == MegaMillionsScreen.ConvertCurrency(text, currency)
    ensures AmountRange(text) == MegaMillionsScreen.AmountRange(text)
  {
  }

  /** The slot the observer of a number field writes: `n1`..`n5` fill slots 0..4. */
  function NumberSlot(f: Field): (i: Option<nat>)
    ensures i.Some? <==> f in {PbN1, PbN2, PbN3, PbN4, PbN5}
    ensures i.Some? ==> i.value < SlotCount
    ensures i == Some(SlotCount - 1) <==> f == PbN5
  {
    match f
    case PbN1 => Some(0)
    case PbN2 => Some(1)
    case PbN3 => Some(2)
    case PbN4 => Some(3)
    case PbN5 => Some(4)
    case _ => None
  }

  /** The number fields in the order their observers fill the array. */
  const NumberFields: seq<Field> := [PbN1, PbN2, PbN3, PbN4, PbN5]

  /** `NumberSlot` is a bijection between the number fields and the slots:
      the i-th field in source order fills slot i, and no two fields share a
      slot. */
  lemma NumberSlotOrder()
    ensures |NumberFields| == SlotCount
    ensures forall i :: 0 <= i < SlotCount ==> NumberSlot(NumberFields[i]) == Some(i)
    ensures forall f :: NumberSlot(f).Some? ==> NumberFields[NumberSlot(f).value] == f
  {
  }

  /** The observer of number field `f` receiving `text`: `"$text, "` for
      `n1`..`n4`, the bare `"$text"` for `n5`; no other slot changes. */
  function OnNumber(slots: seq<string>, f: Field, text: string): (r: seq<string>)
    requires |slots| == SlotCount
    requires NumberSlot(f).Some?
    ensures |r| == SlotCount
    ensures f != PbN5 ==> r[NumberSlot(f).value] == text + Separator
    ensures f == PbN5 ==> r[SlotCount - 1] == text
    ensures forall j :: 0 <= j < SlotCount && Some(j) != NumberSlot(f) ==> r[j] == slots[j]
  {
    Observe(slots, NumberSlot(f).value, text)
  }

  /** Before any number arrives the screen reads "00, 00, 00, 00, 00". */
  lemma InitialNumbers()
    ensures Concat(Initial(SlotCount)) == "00, 00, 00, 00, 00"
  {
    var values := seq(SlotCount, _ => Placeholder);
    FilledDisplay(values);
    JoinFive(values);
  }

  /** Once all five observers have fired, whatever the array held before, the
      screen reads "n1, n2, n3, n4, n5". */
  lemma AllNumbers(slots: seq<string>, n1: string, n2: string, n3: string, n4: string, n5: string)
    requires |slots| == SlotCount
    ensures
      var s1 := OnNumber(slots, PbN1, n1);
      var s2 := OnNumber(s1, PbN2, n2);
      var s3 := OnNumber(s2, PbN3, n3);
      var s4 := OnNumber(s3, PbN4, n4);
      var s5 := OnNumber(s4, PbN5, n5);
      Concat(s5) == n1 + ", " + n2 + ", " + n3 + ", " + n4 + ", " + n5
  {
    var values := [n1, n2, n3, n4, n5];
    var s5 := OnNumber(OnNumber(OnNumber(OnNumber(OnNumber(slots, PbN1, n1), PbN2, n2), PbN3, n3), PbN4, n4), PbN5, n5);
    assert s5 == Filled(values);
    FilledDisplay(values);
    JoinFive(values);
  }

  /** `onCreateView` asks for the PowerBall data unless a request already
      completed. */
  function FetchRequested(s: DrawState): (r: bool)
    ensures r <==> !s.pbRequestMade
  {
    !s.RequestMade(PowerBall)
  }

  /** The two amounts `onViewCreated` renders before any observer fires. */
  function ViewCreatedAmounts(s: DrawState): (r: (Result<string, ConvertError>, Result<string, ConvertError>))
    ensures s.Text(PbPot) == "null" ==> r.0 == Ok(Loading)
    ensures s.Text(PbNextPot) == "null" ==> r.1 == Ok(Loading)
    ensures PbPot in s.values && s.values[PbPot] != "null" ==> r.0 == Render(AmountToken(s.values[PbPot]), s.currency)
    ensures PbNextPot in s.values && s.values[PbNextPot] != "null" ==>
              r.1 == Render(AmountToken(s.values[PbNextPot]), s.currency)
  {
    (ConvertCurrency(s.Text(PbPot), s.currency), ConvertCurrency(s.Text(PbNextPot), s.currency))
  }

  /** The `pb_nextpot` observer: the new amount converted, " at ", and the next
      date as stored ("null" while unset). */
  function OnNextPot(s: DrawState, text: string): (r: Result<string, ConvertError>)
    ensures r.Err? <==> ConvertCurrency(text, s.currency).Err?
    ensures r.Ok? ==> r.value == ConvertCurrency(text, s.currency).value + " at " + s.Text(PbNextDate)
  {
    var amount :- ConvertCurrency(text, s.currency);
    Ok(amount + " at " + s.Text(PbNextDate))
  }

  /** The `pb_nextdate` observer as written: the stored amount, NOT converted,
      " at ", and the new date. */
  function OnNextDate(s: DrawState, text: string): (r: string)
    ensures PbNextPot in s.values ==> r == s.values[PbNextPot] + " at " + text
    ensures PbNextPot !in s.values ==> r == "null at " + text
  {
    s.Text(PbNextPot) + " at " + text
  }

  /** The `pb_nextdate` observer with the stored amount converted like every
      other amount on the screen. */
  function OnNextDateConverted(s: DrawState, text: string): (r: Result<string, ConvertError>)
    ensures r.Err? <==> ConvertCurrency(s.Text(PbNextPot), s.currency).Err?
    ensures r.Ok? ==> r.value == ConvertCurrency(s.Text(PbNextPot), s.currency).value + " at " + text
  {
    var amount :- ConvertCurrency(s.Text(PbNextPot), s.currency);
    Ok(amount + " at " + text)
  }

  /** When the stored next amount converts to a text that starts differently
      from the stored one, the two observers of the next-jackpot line show
      different lines. */
  lemma ObserversDiffer(s: DrawState, shown: string)
    requires PbNextPot in s.values && PbNextDate in s.values
    requires ConvertCurrency(s.values[PbNextPot], s.currency) == Ok(shown)
    requires |s.values[PbNextPot]| > 0 && |shown| > 0 && shown[0] != s.values[PbNextPot][0]
    ensures OnNextPot(s, s.values[PbNextPot]) == Ok(shown + " at " + s.values[PbNextDate])
    ensures OnNextDate(s, s.values[PbNextDate]) == s.values[PbNextPot] + " at " + s.values[PbNextDate]
    ensures Ok(OnNextDate(s, s.values[PbNextDate])) != OnNextPot(s, s.values[PbNextPot])
  {
    var raw, date := s.values[PbNextPot], s.values[PbNextDate];
    assert (shown + " at " + date)[0] != (raw + " at " + date)[0];
  }

  /** As written, the two observers of the next-jackpot line disagree. Start
      the app (currency "EUR") and deliver a complete PowerBall response whose
      next amount is "$20 Million": the amount observer shows
      "€16 Million at <date>" but the date observer shows
      "$20 Million at <date>", so the line depends on which observer fired
      last. */
  lemma NextJackpotDisagrees(data: Object, raw: string, date: string)
    requires raw == "$20 Million"
    requires ViewModelProperties.CompletePowerBall(data)
    requires data["result"].members["next-jackpot"].members["amount"] == Str(raw)
    requires data["result"].members["next-jackpot"].members["date"] == Str(date)
    ensures
      var s := Update(Init(), PowerBall, data).state;
      && s.currency == "EUR" && s.RequestMade(PowerBall)
      && OnNextPot(s, raw) == Ok(EuroSign + "16 Million" + " at " + date)
      && OnNextDate(s, date) == raw + " at " + date
      && Ok(OnNextDate(s, date)) != OnNextPot(s, raw)
  {
    var s := Update(Init(), PowerBall, data).state;
    StoredNextJackpot(Init(), data, raw, date);
    MegaMillionsScreen.TwentyMillion(raw);
    ConvertersAgree(raw, "EUR");
    ObserversDiffer(s, EuroSign + "16 Million");
  }

  /** The next-jackpot entries of the reading are the payload's strings. */
  lemma NextJackpotReading(data: Object, raw: string, date: string)
    requires ViewModelProperties.CompletePowerBall(data)
    requires data["result"].members["next-jackpot"].members["amount"] == Str(raw)
    requires data["result"].members["next-jackpot"].members["date"] == Str(date)
    ensures PbNextPot in ViewModelProperties.PowerBallReading(data)
    ensures ViewModelProperties.PowerBallReading(data)[PbNextPot] == raw
    ensures PbNextDate in ViewModelProperties.PowerBallReading(data)
    ensures ViewModelProperties.PowerBallReading(data)[PbNextDate] == date
  {
  }

  /** A complete payload stores its next-jackpot amount and date and sets the
      PowerBall request flag. */
  lemma StoredNextJackpot(s: DrawState, data: Object, raw: string, date: string)
    requires ViewModelProperties.CompletePowerBall(data)
    requires data["result"].members["next-jackpot"].members["amount"] == Str(raw)
    requires data["result"].members["next-jackpot"].members["date"] == Str(date)
    ensures
      var u := Update(s, PowerBall, data).state;
      && u.currency == s.currency && u.RequestMade(PowerBall)
      && PbNextPot in u.values && u.values[PbNextPot] == raw
      && PbNextDate in u.values && u.values[PbNextDate] == date
  {
    ViewModelProperties.UpdatePowerBallComplete(s, data);
    NextJackpotReading(data, raw, date);
  }

  /** With the date observer corrected, both observers render the same line
      from the same stored amount and date, in whichever order they fire. */
  lemma NextJackpotAgrees(s: DrawState)
    requires PbNextPot in s.values && PbNextDate in s.values
    ensures OnNextPot(s, s.values[PbNextPot]) == OnNextDateConverted(s, s.values[PbNextDate])
  {
  }
}

=== FILE: results.dfy ===
/** Failure-carrying values used throughout the model: `Option` for a value that
    may be absent, and `Result`, usable with `:-`, for a computation that may throw. */
module Results {

  datatype Option<+T> = None | Some(value: T)

  /** `Err` stands for an exception the source throws and does not catch. */
  datatype Result<+T, +E> = Ok(value: T) | Err(error: E) {

    predicate IsFailure() {
      Err?
    }

    function PropagateFailure<U>(): Result<U, E>
      requires Err?
    {
      Err(error)
    }

    function Extract(): T
      requires Ok?
    {
      value
    }
  }
}

=== FILE: settings.dfy ===
/** `SettingsFragment`: the three currency radio buttons, the click handler
    that stores the chosen currency, and the button toggled when the screen
    is shown. */
module Settings {
  import opened Results
  import opened ViewModel

  datatype RadioId = UsdRadio | EurRadio | CadRadio | OtherRadio(id: int)

  /** The view handed to `radioButtonClicked`: a radio button with its id and
      whether it is now checked, or some other kind of view. */
  datatype ClickedView = Radio(id: RadioId, checked: bool) | NotARadio

  /** The currency code each of the three buttons stands for. */
  function CurrencyOf(id: RadioId): (c: Option<string>)
    ensures c.Some? <==> !id.OtherRadio?
    ensures c.Some? ==> c.value in Currencies
  {
    match id
    case UsdRadio => Some("USD")
    case EurRadio => Some("EUR")
    case CadRadio => Some("CAD")
    case OtherRadio(_) => None
  }

  /** `radioButtonClicked(view)`: the currency stored afterwards. A checked
      click on one of the three buttons stores its code; an unchecked click, a
      click on another radio button, or a view that is not a radio button
      leaves the currency as it was. */
  function RadioButtonClicked(currency: string, view: ClickedView): (r: string)
    ensures view.Radio? && view.checked && view.id == UsdRadio ==> r == "USD"
    ensures view.Radio? && view.checked && view.id == EurRadio ==> r == "EUR"
    ensures view.Radio? && view.checked && view.id == CadRadio ==> r == "CAD"
    ensures view.NotARadio? || !view.checked || view.id.OtherRadio? ==> r == currency
    ensures currency in Currencies ==> r in Currencies
  {
    match view
    case NotARadio => currency
    case Radio(id, checked) =>
      match id
      case UsdRadio => if checked then "USD" else currency
      case EurRadio => if checked then "EUR" else currency
      case CadRadio => if checked then "CAD" else currency
      case OtherRadio(_) => currency
  }

  /** The button `onViewCreated` toggles for the stored currency, if any. */
  function ToggledOnShow(currency: string): (r: Option<RadioId>)
    ensures r.Some? <==> currency in Currencies
    ensures r.Some? ==> CurrencyOf(r.value) == Some(currency)
  {
    if currency == "USD" then Some(UsdRadio)
    else if currency == "EUR" then Some(EurRadio)
    else if currency == "CAD" then Some(CadRadio)
    else None
  }

  /** After a checked click on one of the three buttons, the settings screen
      shows that same button toggled the next time it opens. */
  lemma ClickThenShow(currency: string, id: RadioId)
    requires !id.OtherRadio?
    ensures ToggledOnShow(RadioButtonClicked(currency, Radio(id, true))) == Some(id)
  {
  }
}

=== FILE: view_model.dfy ===
/** `MainViewModel`: the state shared by every screen — the selected currency,
    one "request made" flag per game, and the latest value of every draw field —
    and the two routines that copy a payload's fields into it. */
module ViewModel {
  import opened Results
  import opened Json

  datatype Game = PowerBall | MegaMillions

  /** The values the settings screen can store in `currency`. */
  const Currencies: set<string> := {"USD", "EUR", "CAD"}

  /** One `MutableLiveData<String>` of the view model. */
  datatype Field =
    | PbPowerplay | PbPot | PbDate | PbN1 | PbN2 | PbN3 | PbN4 | PbN5 | PbNextDate | PbNextPot
    | MmMegaplier | MmPot | MmDate | MmN1 | MmN2 | MmN3 | MmN4 | MmN5 | MmMb | MmNextDate | MmNextPot

  function GameOf(f: Field): Game {
    match f
    case PbPowerplay | PbPot | PbDate | PbN1 | PbN2 | PbN3 | PbN4 | PbN5 | PbNextDate | PbNextPot =>
      PowerBall
    case _ => MegaMillions
  }

  /** A field with no entry in `values` has never been set: its `value` is null. */
  datatype DrawState = DrawState(
    currency: string,
    pbRequestMade: bool,
    mmRequestMade: bool,
    values: map<Field, string>)
  {
    function RequestMade(game: Game): bool {
      match game
      case PowerBall => pbRequestMade
      case MegaMillions => mmRequestMade
    }

    /** Assigns the flag of `game`, leaving the rest alone. */
    function WithRequestMade(game: Game, made: bool): (t: DrawState)
      ensures t.RequestMade(game) == made
      ensures forall g :: g != game ==> t.RequestMade(g) == RequestMade(g)
      ensures t.currency == currency && t.values == values
    {
      match game
      case PowerBall => this.(pbRequestMade := made)
      case MegaMillions => this.(mmRequestMade := made)
    }

    /** `field.value.toString()`: the stored text, or "null" while unset. */
    function Text(f: Field): (t: string)
      ensures f in values ==> t == values[f]
      ensures f !in values ==> t == "null"
    {
      if f in values then values[f] else "null"
    }
  }

  /** The view model as constructed: currency "EUR", no request made, no data. */
  function Init(): (s: DrawState)
    ensures s.currency == "EUR"
    ensures !s.RequestMade(PowerBall) && !s.RequestMade(MegaMillions)
    ensures forall f: Field :: f !in s.values
  {
    DrawState("EUR", false, false, map[])
  }

  /** One line of an update routine: `field.value = data.getJSONObject(path[0])….getString(key)`. */
  datatype Step = Step(field: Field, path: seq<string>, key: string)

  function Read(data: Object, step: Step): Result<string, JsonError> {
    Lookup(data, step.path, step.key)
  }

  /** The lines of `updatePowerBall`, in source order. */
  const PowerBallPlan: seq<Step> := [
    Step(PbPowerplay, ["result"], "powerplay"),
    Step(PbPot, ["result"], "jackpot"),
    Step(PbDate, ["result"], "date"),
    Step(PbN1, ["result", "numbers"], "n1"),
    Step(PbN2, ["result", "numbers"], "n2"),
    Step(PbN3, ["result", "numbers"], "n3"),
    Step(PbN4, ["result", "numbers"], "n4"),
    Step(PbN5, ["result", "numbers"], "n5"),
    Step(PbNextDate, ["result", "next-jackpot"], "date"),
    Step(PbNextPot, ["result", "next-jackpot"], "amount")
  ]

  /** The lines of `updateMegaMillions`, in source order. */
  const MegaMillionsPlan: seq<Step> := [
    Step(MmMegaplier, ["result"], "megaplier"),
    Step(MmPot, ["result"], "jackpot"),
    Step(MmDate, ["result"], "date"),
    Step(MmN1, ["result", "numbers"], "n1"),
    Step(MmN2, ["result", "numbers"], "n2"),
    Step(MmN3, ["result", "numbers"], "n3"),
    Step(MmN4, ["result", "numbers"], "n4"),
    Step(MmN5, ["result", "numbers"], "n5"),
    Step(MmMb, ["result", "numbers"], "mb"),
    Step(MmNextDate, ["result", "next-jackpot"], "date"),
    Step(MmNextPot, ["result", "next-jackpot"], "amount")
  ]

  function PlanOf(game: Game): seq<Step> {
    match game
    case PowerBall => PowerBallPlan
    case MegaMillions => MegaMillionsPlan
  }

  function FieldsOf(plan: seq<Step>): set<Field> {
    set i | 0 <= i < |plan| :: plan[i].field
  }

  predicate DistinctFields(plan: seq<Step>) {
    forall i, j :: 0 <= i < j < |plan| ==> plan[i].field != plan[j].field
  }

  /** Every line of `plan` finds its key in `data`. */
  predicate ReadsAll(plan: seq<Step>, data: Object) {
    forall i :: 0 <= i < |plan| ==> Read(data, plan[i]).Ok?
  }

  /** The field values after running some lines, and the exception that stopped
      the run, if any. */
  datatype Written = Written(values: map<Field, string>, error: Option<JsonError>)

  /** Runs the lines in order; the first failing lookup stops the run with its
      exception, and the fields already assigned keep their new values. */
  function RunPlan(plan: seq<Step>, data: Object, values: map<Field, string>): (r: Written)
    ensures values.Keys <= r.values.Keys
    ensures r.error == None ==> r.values.Keys == values.Keys + FieldsOf(plan)
    ensures forall f :: f !in FieldsOf(plan) ==>
              (f in r.values <==> f in values) && (f in values ==> r.values[f] == values[f])
    ensures r.error == None <==> ReadsAll(plan, data)
    decreases |plan|
  {
    if |plan| == 0 then Written(values, None)
    else
      match Read(data, plan[0])
      case Err(e) => Written(values, Some(e))
      case Ok(text) =>
        var r := RunPlan(plan[1..], data, values[plan[0].field := text]);
        assert FieldsOf(plan) == {plan[0].field} + FieldsOf(plan[1..]) by {
          forall f | f in FieldsOf(plan) ensures f in {plan[0].field} + FieldsOf(plan[1..]) {
            var i :| 0 <= i < |plan| && plan[i].field == f;
            if i > 0 { assert plan[1..][i - 1].field == f; }
          }
        }
        assert forall i :: 1 <= i < |plan| ==> plan[i] == plan[1..][i - 1];
        r
  }

  /** `updatePowerBall(data)` / `updateMegaMillions(data)` on the state `s`: the
      state afterwards and the exception the call threw, if any. */
  datatype Outcome = Outcome(state: DrawState, error: Option<JsonError>)

  function Update(s: DrawState, game: Game, data: Object): (r: Outcome)
    ensures r.state.currency == s.currency
    ensures r.state.RequestMade(game) <==> s.RequestMade(game) || r.error == None
    ensures forall g :: g != game ==> r.state.RequestMade(g) == s.RequestMade(g)
    ensures s.values.Keys <= r.state.values.Keys
    ensures forall f :: GameOf(f) != game ==>
              (f in r.state.values <==> f in s.values) && (f in s.values ==> r.state.values[f] == s.values[f])
    ensures r.error == None ==> forall f :: GameOf(f) == game ==> f in r.state.values
  {
    var plan := PlanOf(game);
    PlanFields(game);
    var w := RunPlan(plan, data, s.values);
    var flagged := if w.error == None then true else s.RequestMade(game);
    Outcome(s.(values := w.values).WithRequestMade(game, flagged), w.error)
  }

  /** Each plan assigns exactly the fields of its own game, each once. */
  lemma PlanFields(game: Game)
    ensures DistinctFields(PlanOf(game))
    ensures forall f :: f in FieldsOf(PlanOf(game)) <==> GameOf(f) == game
  {
    match game
    case PowerBall => PowerBallPlanFields();
    case MegaMillions => MegaMillionsPlanFields();
  }

  /** The line of its game's routine that assigns `f`. */
  function LineOf(f: Field): nat {
    match f
    case PbPowerplay => 0
    case PbPot => 1
    case PbDate => 2
    case PbN1 => 3
    case PbN2 => 4
    case PbN3 => 5
    case PbN4 => 6
    case PbN5 => 7
    case PbNextDate => 8
    case PbNextPot => 9
    case MmMegaplier => 0
    case MmPot => 1
    case MmDate => 2
    case MmN1 => 3
    case MmN2 => 4
    case MmN3 => 5
    case MmN4 => 6
    case MmN5 => 7
    case MmMb => 8
    case MmNextDate => 9
    case MmNextPot => 10
  }

  lemma PowerBallPlanFields()
    ensures DistinctFields(PowerBallPlan)
    ensures forall f :: f in FieldsOf(PowerBallPlan) <==> GameOf(f) == PowerBall
  {
    var plan := PowerBallPlan;
    forall i | 0 <= i < |plan| ensures LineOf(plan[i].field) == i && GameOf(plan[i].field) == PowerBall {
      if i == 0 { }
      else if i == 1 { }
      else if i == 2 { }
      else if i == 3 { }
      else if i == 4 { }
      else if i == 5 { }
      else if i == 6 { }
      else if i == 7 { }
      else if i == 8 { }
      else { }
    }
    forall f | GameOf(f) == PowerBall ensures f in FieldsOf(plan) {
      match f
        case PbPowerplay => assert plan[0].field == f;
        case PbPot => assert plan[1].field == f;
        case PbDate => assert plan[2].field == f;
        case PbN1 => assert plan[3].field == f;
        case PbN2 => assert plan[4].field == f;
        case PbN3 => assert plan[5].field == f;
        case PbN4 => assert plan[6].field == f;
        case PbN5 => assert plan[7].field == f;
        case PbNextDate => assert plan[8].field == f;
        case PbNextPot => assert plan[9].field == f;
        case _ => assert false;
    }
  }

  lemma MegaMillionsPlanFields()
    ensures DistinctFields(MegaMillionsPlan)
    ensures forall f :: f in FieldsOf(MegaMillionsPlan) <==> GameOf(f) == MegaMillions
  {
    var plan := MegaMillionsPlan;
    forall i | 0 <= i < |plan| ensures LineOf(plan[i].field) == i && GameOf(plan[i].field) == MegaMillions {
      if i == 0 { }
      else if i == 1 { }
      else if i == 2 { }
      else if i == 3 { }
      else if i == 4 { }
      else if i == 5 { }
      else if i == 6 { }
      else if i == 7 { }
      else if i == 8 { }
      else if i == 9 { }
      else { }
    }
    forall f | GameOf(f) == MegaMillions ensures f in FieldsOf(plan) {
      match f
        case MmMegaplier => assert plan[0].field == f;
        case MmPot => assert plan[1].field == f;
        case MmDate => assert plan[2].field == f;
        case MmN1 => assert plan[3].field == f;
        case MmN2 => assert plan[4].field == f;
        case MmN3 => assert plan[5].field == f;
        case MmN4 => assert plan[6].field == f;
        case MmN5 => assert plan[7].field == f;
        case MmMb => assert plan[8].field == f;
        case MmNextDate => assert plan[9].field == f;
        case MmNextPot => assert plan[10].field == f;
        case _ => assert false;
    }
  }
}

module ViewModelProperties {
  import opened Results
  import opened Json
  import opened ViewModel

  /** What a run writes does not depend on what was stored before: the stored
      map is overwritten by the same entries, and the same exception is thrown. */
  lemma {:induction false} RunPlanOverwrites(plan: seq<Step>, data: Object, v: map<Field, string>, w: map<Field, string>)
    ensures RunPlan(plan, data, v + w).values == v + RunPlan(plan, data, w).values
    ensures RunPlan(plan, data, v + w).error == RunPlan(plan, data, w).error
    decreases |plan|
  {
    if |plan| > 0 {
      match Read(data, plan[0])
      case Err(_) =>
      case Ok(text) =>
        var f := plan[0].field;
        assert (v + w)[f := text] == v + w[f := text];
        RunPlanOverwrites(plan[1..], data, v, w[f := text]);
    }
  }

  lemma UnionSelf<K, V>(m: map<K, V>)
    ensures m + map[] == m && m + m == m
  {
  }

  /** Running the same lines twice on the same payload gives the result of
      running them once, whether or not a lookup failed. */
  lemma RunPlanIdempotent(plan: seq<Step>, data: Object, values: map<Field, string>)
    ensures RunPlan(plan, data, RunPlan(plan, data, values).values) == RunPlan(plan, data, values)
  {
    var empty: map<Field, string> := map[];
    var w := RunPlan(plan, data, empty);
    var once := RunPlan(plan, data, values);
    UnionSelf(values);
    RunPlanOverwrites(plan, data, values, empty);
    assert once.values == values + w.values && once.error == w.error;
    UnionSelf(w.values);
    RunPlanOverwrites(plan, data, w.values, empty);
    assert RunPlan(plan, data, w.values) == w;
    RunPlanOverwrites(plan, data, values, w.values);
  }

  /** One line of a run: a failing lookup stops it, a succeeding one assigns its
      field and runs the rest. */
  lemma RunPlanHead(plan: seq<Step>, data: Object, values: map<Field, string>)
    requires |plan| > 0
    ensures Read(data, plan[0]).Err? ==>
              RunPlan(plan, data, values) == Written(values, Some(Read(data, plan[0]).error))
    ensures Read(data, plan[0]).Ok? ==>
              RunPlan(plan, data, values) ==
              RunPlan(plan[1..], data, values[plan[0].field := Read(data, plan[0]).value])
  {
  }

  /** Dropping the first line keeps the fields distinct, and the first field is
      not assigned again. */
  lemma DistinctTail(plan: seq<Step>)
    requires |plan| > 0 && DistinctFields(plan)
    ensures DistinctFields(plan[1..])
    ensures plan[0].field !in FieldsOf(plan[1..])
  {
    var rest := plan[1..];
    forall i | 0 <= i < |rest| ensures rest[i].field != plan[0].field {
      assert rest[i] == plan[i + 1];
    }
  }

  /** A call that stops at line `k` keeps the values written by lines `0..k-1`
      (no rollback), leaves the fields of lines `k..` as they were, and throws
      the exception of line `k`; with `k == |plan|` every line is written. */
  lemma {:induction false} RunPlanStopsAt(plan: seq<Step>, data: Object, values: map<Field, string>, k: nat)
    requires DistinctFields(plan)
    requires k <= |plan|
    requires forall i :: 0 <= i < k ==> Read(data, plan[i]).Ok?
    requires k < |plan| ==> Read(data, plan[k]).Err?
    ensures k == |plan| ==> RunPlan(plan, data, values).error == None
    ensures k < |plan| ==> RunPlan(plan, data, values).error == Some(Read(data, plan[k]).error)
    ensures forall i :: 0 <= i < k ==>
              plan[i].field in RunPlan(plan, data, values).values &&
              RunPlan(plan, data, values).values[plan[i].field] == Read(data, plan[i]).value
    ensures forall i :: k <= i < |plan| ==>
              (plan[i].field in RunPlan(plan, data, values).values <==> plan[i].field in values) &&
              (plan[i].field in values ==> RunPlan(plan, data, values).values[plan[i].field] == values[plan[i].field])
    decreases |plan|
  {
    if |plan| > 0 {
      RunPlanHead(plan, data, values);
    }
    if |plan| > 0 && k > 0 {
      var f := plan[0].field;
      var text := Read(data, plan[0]).value;
      var rest := plan[1..];
      var values' := values[f := text];
      DistinctTail(plan);
      RunPlanStopsAt(rest, data, values', k - 1);
      var r := RunPlan(plan, data, values);
      forall i | 0 <= i < k
        ensures plan[i].field in r.values && r.values[plan[i].field] == Read(data, plan[i]).value
      {
        if i > 0 { assert plan[i] == rest[i - 1]; }
      }
      forall i | k <= i < |plan|
        ensures plan[i].field in r.values <==> plan[i].field in values
        ensures plan[i].field in values ==> r.values[plan[i].field] == values[plan[i].field]
      {
        assert plan[i] == rest[i - 1];
        assert plan[i].field != f;
      }
    }
  }


  predicate HasString(o: Object, key: string) {
    key in o && o[key].Str?
  }

  predicate HasObject(o: Object, key: string) {
    key in o && o[key].Obj?
  }

  /** A payload of the shape `updatePowerBall` reads: `result` holds the
      string fields `powerplay`, `jackpot` and `date`, the object `numbers` with
      `n1`..`n5`, and the object `next-jackpot` with `date` and `amount`. */
  predicate CompletePowerBall(data: Object) {
    && HasObject(data, "result")
    && var result := data["result"].members;
    && HasString(result, "powerplay") && HasString(result, "jackpot") && HasString(result, "date")
    && HasObject(result, "numbers") && HasObject(result, "next-jackpot")
    && (var numbers := result["numbers"].members;
        HasString(numbers, "n1") && HasString(numbers, "n2") && HasString(numbers, "n3")
        && HasString(numbers, "n4") && HasString(numbers, "n5"))
    && (var next := result["next-jackpot"].members;
        HasString(next, "date") && HasString(next, "amount"))
  }

  /** The PowerBall fields a complete payload carries. */
  function PowerBallReading(data: Object): map<Field, string>
    requires CompletePowerBall(data)
  {
    var result := data["result"].members;
    var numbers := result["numbers"].members;
    var next := result["next-jackpot"].members;
    map[
      PbPowerplay := result["powerplay"].text,
      PbPot := result["jackpot"].text,
      PbDate := result["date"].text,
      PbN1 := numbers["n1"].text,
      PbN2 := numbers["n2"].text,
      PbN3 := numbers["n3"].text,
      PbN4 := numbers["n4"].text,
      PbN5 := numbers["n5"].text,
      PbNextDate := next["date"].text,
      PbNextPot := next["amount"].text
    ]
  }

  /** The Mega Millions counterpart: `megaplier` instead of `powerplay`, and a
      sixth number `mb` in `numbers`. */
  predicate CompleteMegaMillions(data: Object) {
    && HasObject(data, "result")
    && var result := data["result"].members;
    && HasString(result, "megaplier") && HasString(result, "jackpot") && HasString(result, "date")
    && HasObject(result, "numbers") && HasObject(result, "next-jackpot")
    && (var numbers := result["numbers"].members;
        HasString(numbers, "n1") && HasString(numbers, "n2") && HasString(numbers, "n3")
        && HasString(numbers, "n4") && HasString(numbers, "n5") && HasString(numbers, "mb"))
    && (var next := result["next-jackpot"].members;
        HasString(next, "date") && HasString(next, "amount"))
  }

  function MegaMillionsReading(data: Object): map<Field, string>
    requires CompleteMegaMillions(data)
  {
    var result := data["result"].members;
    var numbers := result["numbers"].members;
    var next := result["next-jackpot"].members;
    map[
      MmMegaplier := result["megaplier"].text,
      MmPot := result["jackpot"].text,
      MmDate := result["date"].text,
      MmN1 := numbers["n1"].text,
      MmN2 := numbers["n2"].text,
      MmN3 := numbers["n3"].text,
      MmN4 := numbers["n4"].text,
      MmN5 := numbers["n5"].text,
      MmMb := numbers["mb"].text,
      MmNextDate := next["date"].text,
      MmNextPot := next["amount"].text
    ]
  }

  /** `getJSONObject(a).getString(key)` succeeds exactly when `a` holds an object
      whose `key` is a string. */
  lemma LookupOne(o: Object, a: string, key: string)
    ensures Lookup(o, [a], key).Ok? <==> HasObject(o, a) && HasString(o[a].members, key)
    ensures Lookup(o, [a], key).Ok? ==> Lookup(o, [a], key).value == o[a].members[key].text
  {
    assert [a][1..] == [];
  }

  /** `getJSONObject(a).getJSONObject(b).getString(key)` likewise. */
  lemma LookupTwo(o: Object, a: string, b: string, key: string)
    ensures Lookup(o, [a, b], key).Ok? <==>
              HasObject(o, a) && HasObject(o[a].members, b) && HasString(o[a].members[b].members, key)
    ensures Lookup(o, [a, b], key).Ok? ==>
              Lookup(o, [a, b], key).value == o[a].members[b].members[key].text
  {
    assert [a, b][1..] == [b];
    if HasObject(o, a) {
      LookupOne(o[a].members, b, key);
    }
  }
  /** `LookupOne` for a line of a routine. */
  lemma ReadOne(data: Object, step: Step)
    requires |step.path| == 1
    ensures Read(data, step).Ok? <==>
              HasObject(data, step.path[0]) && HasString(data[step.path[0]].members, step.key)
    ensures Read(data, step).Ok? ==> Read(data, step).value == data[step.path[0]].members[step.key].text
  {
    assert step.path == [step.path[0]];
    LookupOne(data, step.path[0], step.key);
  }

  /** `LookupTwo` for a line of a routine. */
  lemma ReadTwo(data: Object, step: Step)
    requires |step.path| == 2
    ensures Read(data, step).Ok? <==>
              HasObject(data, step.path[0]) && HasObject(data[step.path[0]].members, step.path[1]) &&
              HasString(data[step.path[0]].members[step.path[1]].members, step.key)
    ensures Read(data, step).Ok? ==>
              Read(data, step).value == data[step.path[0]].members[step.path[1]].members[step.key].text
  {
    assert step.path == [step.path[0], step.path[1]];
    LookupTwo(data, step.path[0], step.path[1], step.key);
  }


  /** Every line of `updatePowerBall` succeeds exactly on a complete payload,
      and then reads the value the payload carries for its field. */
  lemma ReadPowerBallPlanOk(data: Object)
    ensures ReadsAll(PowerBallPlan, data) <==> CompletePowerBall(data)
  {
    if ReadsAll(PowerBallPlan, data) {
      PowerBallShape(data);
    }
    if CompletePowerBall(data) {
      ReadPowerBallPlanValues(data);
    }
  }

  /** A payload on which every PowerBall lookup succeeds has the shape `updatePowerBall` reads. */
  lemma PowerBallShape(data: Object)
    requires ReadsAll(PowerBallPlan, data)
    ensures CompletePowerBall(data)
  {
    var plan := PowerBallPlan;
    ReadOne(data, plan[0]);
    ReadOne(data, plan[1]);
    ReadOne(data, plan[2]);
    ReadTwo(data, plan[3]);
    ReadTwo(data, plan[4]);
    ReadTwo(data, plan[5]);
    ReadTwo(data, plan[6]);
    ReadTwo(data, plan[7]);
    ReadTwo(data, plan[8]);
    ReadTwo(data, plan[9]);
  }

  /** On a complete payload each line reads the value the payload carries for its field. */
  lemma ReadPowerBallPlanValues(data: Object)
    requires CompletePowerBall(data)
    ensures forall i :: 0 <= i < |PowerBallPlan| ==>
              Read(data, PowerBallPlan[i]).Ok? && PowerBallPlan[i].field in PowerBallReading(data) &&
              Read(data, PowerBallPlan[i]).value == PowerBallReading(data)[PowerBallPlan[i].field]
  {
    var plan := PowerBallPlan;
    var reading := PowerBallReading(data);
    forall i | 0 <= i < |plan|
      ensures Read(data, plan[i]).Ok? && plan[i].field in reading && Read(data, plan[i]).value == reading[plan[i].field]
    {
      if i == 0 {
        ReadOne(data, plan[0]);
      } else if i == 1 {
        ReadOne(data, plan[1]);
      } else if i == 2 {
        ReadOne(data, plan[2]);
      } else if i == 3 {
        ReadTwo(data, plan[3]);
      } else if i == 4 {
        ReadTwo(data, plan[4]);
      } else if i == 5 {
        ReadTwo(data, plan[5]);
      } else if i == 6 {
        ReadTwo(data, plan[6]);
      } else if i == 7 {
        ReadTwo(data, plan[7]);
      } else if i == 8 {
        ReadTwo(data, plan[8]);
      } else {
        ReadTwo(data, plan[9]);
      }
    }
  }

  /** Every line of `updateMegaMillions` succeeds exactly on a complete payload,
      and then reads the value the payload carries for its field. */
  lemma ReadMegaMillionsPlanOk(data: Object)
    ensures ReadsAll(MegaMillionsPlan, data) <==> CompleteMegaMillions(data)
  {
    if ReadsAll(MegaMillionsPlan, data) {
      MegaMillionsShape(data);
    }
    if CompleteMegaMillions(data) {
      ReadMegaMillionsPlanValues(data);
    }
  }

  /** A payload on which every Mega Millions lookup succeeds has the shape `updateMegaMillions` reads. */
  lemma MegaMillionsShape(data: Object)
    requires ReadsAll(MegaMillionsPlan, data)
    ensures CompleteMegaMillions(data)
  {
    var plan := MegaMillionsPlan;
    ReadOne(data, plan[0]);
    ReadOne(data, plan[1]);
    ReadOne(data, plan[2]);
    ReadTwo(data, plan[3]);
    ReadTwo(data, plan[4]);
    ReadTwo(data, plan[5]);
    ReadTwo(data, plan[6]);
    ReadTwo(data, plan[7]);
    ReadTwo(data, plan[8]);
    ReadTwo(data, plan[9]);
    ReadTwo(data, plan[10]);
  }

  /** On a complete payload each line reads the value the payload carries for its field. */
  lemma ReadMegaMillionsPlanValues(data: Object)
    requires CompleteMegaMillions(data)
    ensures forall i :: 0 <= i < |MegaMillionsPlan| ==>
              Read(data, MegaMillionsPlan[i]).Ok? && MegaMillionsPlan[i].field in MegaMillionsReading(data) &&
              Read(data, MegaMillionsPlan[i]).value == MegaMillionsReading(data)[MegaMillionsPlan[i].field]
  {
    var plan := MegaMillionsPlan;
    var reading := MegaMillionsReading(data);
    forall i | 0 <= i < |plan|
      ensures Read(data, plan[i]).Ok? && plan[i].field in reading && Read(data, plan[i]).value == reading[plan[i].field]
    {
      if i == 0 {
        ReadOne(data, plan[0]);
      } else if i == 1 {
        ReadOne(data, plan[1]);
      } else if i == 2 {
        ReadOne(data, plan[2]);
      } else if i == 3 {
        ReadTwo(data, plan[3]);
      } else if i == 4 {
        ReadTwo(data, plan[4]);
      } else if i == 5 {
        ReadTwo(data, plan[5]);
      } else if i == 6 {
        ReadTwo(data, plan[6]);
      } else if i == 7 {
        ReadTwo(data, plan[7]);
      } else if i == 8 {
        ReadTwo(data, plan[8]);
      } else if i == 9 {
        ReadTwo(data, plan[9]);
      } else {
        ReadTwo(data, plan[10]);
      }
    }
  }

  /** A routine completes without throwing exactly when every lookup succeeds. */
  lemma UpdateReadsAll(s: DrawState, game: Game, data: Object)
    ensures Update(s, game, data).error == None <==> ReadsAll(PlanOf(game), data)
  {
  }

  /** The reading holds exactly the fields of its game. */
  lemma PowerBallReadingKeys(data: Object)
    requires CompletePowerBall(data)
    ensures forall f :: f in PowerBallReading(data) <==> GameOf(f) == PowerBall
  {
    var reading := PowerBallReading(data);
    forall f | GameOf(f) == PowerBall ensures f in reading {
      match f
        case PbPowerplay => assert PbPowerplay in reading;
        case PbPot => assert PbPot in reading;
        case PbDate => assert PbDate in reading;
        case PbN1 => assert PbN1 in reading;
        case PbN2 => assert PbN2 in reading;
        case PbN3 => assert PbN3 in reading;
        case PbN4 => assert PbN4 in reading;
        case PbN5 => assert PbN5 in reading;
        case PbNextDate => assert PbNextDate in reading;
        case PbNextPot => assert PbNextPot in reading;
        case _ => assert false;
    }
  }

  /** `updatePowerBall` completes without throwing exactly on a complete
      payload; it then stores every PowerBall field of the payload, keeps
      everything else, and sets `pb_requestMade`. */
  lemma UpdatePowerBallComplete(s: DrawState, data: Object)
    ensures Update(s, PowerBall, data).error == None <==> CompletePowerBall(data)
    ensures CompletePowerBall(data) ==>
              Update(s, PowerBall, data).state ==
              s.(pbRequestMade := true, values := s.values + PowerBallReading(data))
  {
    ReadPowerBallPlanOk(data);
    UpdateReadsAll(s, PowerBall, data);
    if CompletePowerBall(data) {
      ReadPowerBallPlanValues(data);
      PowerBallReadingKeys(data);
      assert PlanOf(PowerBall) == PowerBallPlan;
      UpdateWritesPlan(s, PowerBall, data, PowerBallReading(data));
    }
  }

  /** The reading holds exactly the fields of its game. */
  lemma MegaMillionsReadingKeys(data: Object)
    requires CompleteMegaMillions(data)
    ensures forall f :: f in MegaMillionsReading(data) <==> GameOf(f) == MegaMillions
  {
    var reading := MegaMillionsReading(data);
    forall f | GameOf(f) == MegaMillions ensures f in reading {
      match f
        case MmMegaplier => assert MmMegaplier in reading;
        case MmPot => assert MmPot in reading;
        case MmDate => assert MmDate in reading;
        case MmN1 => assert MmN1 in reading;
        case MmN2 => assert MmN2 in reading;
        case MmN3 => assert MmN3 in reading;
        case MmN4 => assert MmN4 in reading;
        case MmN5 => assert MmN5 in reading;
        case MmMb => assert MmMb in reading;
        case MmNextDate => assert MmNextDate in reading;
        case MmNextPot => assert MmNextPot in reading;
        case _ => assert false;
    }
  }

  /** `updateMegaMillions` completes without throwing exactly on a complete
      payload; it then stores every Mega Millions field of the payload, keeps
      everything else, and sets `mm_requestMade`. */
  lemma UpdateMegaMillionsComplete(s: DrawState, data: Object)
    ensures Update(s, MegaMillions, data).error == None <==> CompleteMegaMillions(data)
    ensures CompleteMegaMillions(data) ==>
              Update(s, MegaMillions, data).state ==
              s.(mmRequestMade := true, values := s.values + MegaMillionsReading(data))
  {
    ReadMegaMillionsPlanOk(data);
    UpdateReadsAll(s, MegaMillions, data);
    if CompleteMegaMillions(data) {
      ReadMegaMillionsPlanValues(data);
      MegaMillionsReadingKeys(data);
      assert PlanOf(MegaMillions) == MegaMillionsPlan;
      UpdateWritesPlan(s, MegaMillions, data, MegaMillionsReading(data));
    }
  }

  /** When every line reads the value `reading` holds for its field, and the
      lines assign exactly the keys of `reading`, the run overwrites the stored
      values with `reading` and throws nothing. */
  lemma RunPlanWritesAll(plan: seq<Step>, data: Object, values: map<Field, string>, reading: map<Field, string>)
    requires DistinctFields(plan)
    requires FieldsOf(plan) == reading.Keys
    requires forall i :: 0 <= i < |plan| ==>
               Read(data, plan[i]).Ok? && plan[i].field in reading &&
               Read(data, plan[i]).value == reading[plan[i].field]
    ensures RunPlan(plan, data, values) == Written(values + reading, None)
  {
    RunPlanStopsAt(plan, data, values, |plan|);
    var r := RunPlan(plan, data, values).values;
    assert r.Keys == (values + reading).Keys;
    forall f | f in r ensures r[f] == (values + reading)[f] {
      if f in reading {
        var i :| 0 <= i < |plan| && plan[i].field == f;
      }
    }
  }

  /** The game-level form of `RunPlanWritesAll`. */
  lemma UpdateWritesPlan(s: DrawState, game: Game, data: Object, reading: map<Field, string>)
    requires forall f :: f in reading <==> GameOf(f) == game
    requires forall i :: 0 <= i < |PlanOf(game)| ==>
               Read(data, PlanOf(game)[i]).Ok? && PlanOf(game)[i].field in reading &&
               Read(data, PlanOf(game)[i]).value == reading[PlanOf(game)[i].field]
    ensures Update(s, game, data).error == None
    ensures Update(s, game, data).state == s.(values := s.values + reading).WithRequestMade(game, true)
  {
    PlanFields(game);
    assert FieldsOf(PlanOf(game)) == reading.Keys;
    RunPlanWritesAll(PlanOf(game), data, s.values, reading);
  }

  /** Applying the same payload twice leaves the state the first application
      produced, complete payload or not. */
  lemma UpdateIdempotent(s: DrawState, game: Game, data: Object)
    ensures Update(Update(s, game, data).state, game, data) == Update(s, game, data)
  {
    RunPlanIdempotent(PlanOf(game), data, s.values);
  }

  /** A lookup failing at line `k` of the routine throws that line's exception
      after lines `0..k-1` have already stored their values (no rollback);
      the fields of lines `k..` and the request flag keep their old values. */
  lemma UpdateStopsAt(s: DrawState, game: Game, data: Object, k: nat)
    requires k < |PlanOf(game)|
    requires forall i :: 0 <= i < k ==> Read(data, PlanOf(game)[i]).Ok?
    requires Read(data, PlanOf(game)[k]).Err?
    ensures Update(s, game, data).error == Some(Read(data, PlanOf(game)[k]).error)
    ensures Update(s, game, data).state.RequestMade(game) == s.RequestMade(game)
    ensures forall i :: 0 <= i < k ==>
              PlanOf(game)[i].field in Update(s, game, data).state.values &&
              Update(s, game, data).state.values[PlanOf(game)[i].field] == Read(data, PlanOf(game)[i]).value
    ensures forall i :: k <= i < |PlanOf(game)| ==>
              var f := PlanOf(game)[i].field;
              (f in Update(s, game, data).state.values <==> f in s.values) &&
              (f in s.values ==> Update(s, game, data).state.values[f] == s.values[f])
  {
    PlanFields(game);
    RunPlanStopsAt(PlanOf(game), data, s.values, k);
  }
}
